=== FILE: README.md ===
# Standard HTTP storage client, modelled in Dafny

This project models the client side of the AlephVault remote storage
library's "Standard HTTP" back end. A `Root` holds a normalised base
endpoint and an authorization. It hands out list resources
(`{Base}/{Name}`, with items at `{Base}/{Name}/{id}`) and simple resources
(`{Base}/{Name}`). Every resource call builds one HTTP request through the
static `Engine`. The engine sends the request, classifies the response
status through a fixed sequence of checks and deserialises the body. The
resource's `WrapException` turns any engine exception into a `Result`
carrying a `ResultCode`.

The model is pure and functional:

- The transport's answer is a parameter of every call: a connection error,
  or a completed exchange with a status and a body.
- JSON parsing, serialisation and URL encoding are function parameters
  (oracles). A parser answers malformed, `null` or a value, because the JSON
  library returns `null` for an empty or `null` document.
- A call returns an `Exchange`: the request that went out (if any) and an
  `Outcome`, which is a return value or a thrown exception. `Thrown`
  distinguishes the engine's own exception from the null dereference, the
  argument-null error and the argument error that the code can also raise.

Modules:

- `Text`: split and join at a character, the query stripping
  `url.Split('?')[0]`, `TrimEnd`, and decimal rendering.
- `Cursors`: the paging cursor and its query string.
- `Http`: requests, verbs, headers and the `Authorization` header.
- `EngineCommon`: the engine exception, sending, and (de)serialisation.
- `EngineErrors`: the six status checks and the two check orders.
- `Engine`: the eight engine operations.
- `Resources`: resource paths, `WrapException` and the success Results.
- `ListResource`, `SimpleResource`: the two facades.
- `Roots`: the root and its resource factories.
- `FacadeProperties`: end-to-end statements from the status of an answer to
  the Result a caller sees.

The query part of an endpoint is cut only after the path is built: the
code appends `/{Name}`, `/{id}` and `/~{method}` to the base endpoint and
then cuts the whole string at its first `?`. So a `?` in the base endpoint,
the name, the id or the method cuts the rest of the path off the request
URL (`Resources.QueryInBaseCutsPath`); the cursor or argument query of a
list, view or operation call is appended after the cut.

A write's 400 or 409 answer (`Create`, `Update`, `Replace`, `Delete`,
`View`, `Operation`) whose body parses to `null`, that is an empty body or
the JSON document `null`, makes the checks dereference `null`. The
resulting exception is not the engine's, so `WrapException` lets it
through to the facade's caller (`FacadeProperties.OnlyNullBodiesEscape`).
The same happens for a successful create whose body parses to `null`.
Reads (`List`, `Read`) never look at a 400 or 409 body: a read passes a
400 answer on to the element parser and reports a 409 as `ClientError`
(`FacadeProperties.ReadByStatus`, `FacadeProperties.ConflictMeansDifferentThings`).

## Model

| member | source | states |
|---|---|---|
| EngineErrors.FailOnAccess | Runtime/StandardHttp/Implementation/Engine_Errors.cs:17-31 | throws exactly for 401, 403, 404, 405 and 410, with Unauthorized, Forbidden, DoesNotExist, Unsupported and DoesNotExist; every code it throws is in the access category |
| EngineErrors.FailOnServerError | Runtime/StandardHttp/Implementation/Engine_Errors.cs:38-51 | throws exactly for 500, 502, 503 and 504, with InternalError, Unreachable, ServiceUnavailable and Timeout |
| EngineErrors.FailOnFormatError | Runtime/StandardHttp/Implementation/Engine_Errors.cs:55-63 | throws FormatError exactly for 406 and 415 |
| EngineErrors.BadRequestError | Runtime/StandardHttp/Implementation/Engine_Errors.cs:75-87 | the two authorization codes give Unauthorized, `schema:invalid` gives ValidationError with the body's errors, `format:unexpected` gives FormatError; any other code, or none, gives BadRequest carrying that code |
| EngineErrors.FailOnBadRequest | Runtime/StandardHttp/Implementation/Engine_Errors.cs:70-89 | throws exactly for 400; an unparsable body gives FormatError, a `null` body a null dereference, otherwise the body's exception |
| EngineErrors.ConflictCode | Runtime/StandardHttp/Implementation/Engine_Errors.cs:107-122 | `already-exists`, `in-use` and `duplicate-key` give their own codes; anything else, or no code, gives Conflict |
| EngineErrors.FailOnConflict | Runtime/StandardHttp/Implementation/Engine_Errors.cs:99-127 | throws exactly for 409; an unparsable body gives Conflict, a `null` body a null dereference |
| EngineErrors.FailOnOtherErrors | Runtime/StandardHttp/Implementation/Engine_Errors.cs:130-134 | throws exactly above 400: ServerError above 500, ClientError otherwise |
| EngineErrors.RunCheck | Runtime/StandardHttp/Implementation/Engine.cs:115-120 | running any one of the six checks throws only for a status of 400 or more |
| EngineErrors.Classify | Runtime/StandardHttp/Implementation/Engine.cs:115-120 | a check sequence throws only for a status of 400 or more, and an empty sequence never throws |
| EngineErrors.ClassifyFirstMatch | Runtime/StandardHttp/Implementation/Engine.cs:228-233 | running checks in order yields the result of the first check that throws, and nothing when none throws |
| EngineErrors.WriteChecksMatchTable | Runtime/StandardHttp/Implementation/Engine.cs:161-166 | the six write checks in their order equal a table keyed on the status: fixed codes for the listed statuses, the parsed body for 400 and 409, then the 4xx/5xx fallback |
| EngineErrors.ReadChecksMatchTable | Runtime/StandardHttp/Implementation/Engine.cs:43-46 | the four read checks equal the fixed-code table with the fallback; 400 and 409 are not looked at |
| EngineErrors.WriteChecksCoverErrors | Runtime/StandardHttp/Implementation/Engine.cs:198-203 | the write checks throw if and only if the status is at least 400 |
| EngineErrors.ReadChecksCoverErrors | Runtime/StandardHttp/Implementation/Engine.cs:78-81 | the read checks throw if and only if the status is above 400, so a 400 passes a read |
| EngineErrors.ReadWriteDiffer | Runtime/StandardHttp/Implementation/Engine.cs:78-81 | reads and writes agree on every status but 400 and 409; a 409 read is ClientError, and a 409 write never is |
| EngineErrors.SpecificChecksDisjoint | Runtime/StandardHttp/Implementation/Engine_Errors.cs:17-127 | no status is claimed by two of the five specific checks, so their relative order only matters against the fallback |
| EngineErrors.ClassifyNeverSucceeds | Runtime/StandardHttp/Implementation/Engine_Errors.cs:17-134 | no check ever throws a success code, and every thrown engine exception has at most one detail |
| EngineErrors.BodyMattersOnlyFor400And409 | Runtime/StandardHttp/Implementation/Engine_Errors.cs:70-127 | apart from 400 and 409, the body never changes the classification |
| EngineCommon.WithErrors | Runtime/StandardHttp/Implementation/Engine_Common.cs:42-46 | the exception keeps the code and the validation errors, with no request error code |
| EngineCommon.WithRequestCode | Runtime/StandardHttp/Implementation/Engine_Common.cs:48-52 | the exception keeps the code and the request error code, with no validation errors |
| EngineCommon.SendRequest | Runtime/StandardHttp/Implementation/Engine_Common.cs:56-64 | a connection error throws Unreachable; otherwise the status and body come back |
| EngineCommon.DeserializeOr | Runtime/StandardHttp/Implementation/Engine_Common.cs:86-98 | throws the given code exactly when the body does not parse; a `null` document gives `null` |
| EngineCommon.Deserialize | Runtime/StandardHttp/Implementation/Engine_Common.cs:73-76 | the same with FormatError |
| EngineCommon.DeserializeDocument | Runtime/StandardHttp/Implementation/Engine_Common.cs:106-138 | a JSON object or array reader throws FormatError exactly when the text is not one |
| EngineCommon.Serialize | Runtime/StandardHttp/Implementation/Engine_Common.cs:141-158 | throws the given code exactly when serialisation fails |
| Http.AuthorizationHeaderRoundTrip | Runtime/StandardHttp/Implementation/Engine.cs:35 | the header value `Scheme Value` splits back at its first space into the scheme and the value when the scheme has no space |
| Http.AuthorizationHeader | Runtime/StandardHttp/Implementation/Engine.cs:35 | the header is named `Authorization` and its value is as long as the scheme, one space and the value together |
| Cursors.QueryString | Runtime/StandardHttp/Types/Cursor.cs:32-35 | the query holds exactly two `&`-separated parts, `offset=` and `limit=` with the decimal numbers |
| Cursors.FirstPageQueryString | Runtime/StandardHttp/Types/Cursor.cs:22-35 | the cursor with offset 0 and limit 20 gives `offset=0&limit=20` |
| Cursors.QueryStringRoundTrip | Runtime/StandardHttp/Types/Cursor.cs:32-35 | parsing a cursor's query string gives back the cursor |
| Cursors.QueryStringInjective | Runtime/StandardHttp/Types/Cursor.cs:22-35 | different cursors have different query strings |
| Text.Split | Runtime/StandardHttp/Implementation/Engine.cs:69 | splitting gives at least one part, no part holds the separator, and joining the parts restores the string |
| Text.Join | Runtime/StandardHttp/Implementation/Engine.cs:251-255 | no contract of its own: `Text.JoinHead` and `Text.SplitOfJoin` state what it builds |
| Text.JoinHead | Runtime/StandardHttp/Implementation/Engine.cs:251-255 | a join starts with its first part, followed by the separator when more parts come, and is that part alone when it is the only one |
| Text.SplitOfJoin | Runtime/StandardHttp/Implementation/Engine.cs:251-255 | joining separator-free parts and splitting again gives back the parts |
| Text.StripQuery | Runtime/StandardHttp/Implementation/Engine.cs:69 | the result is the longest `?`-free prefix: it holds no `?` and is followed by a `?` or the end |
| Text.StripQueryUnique | Runtime/StandardHttp/Implementation/Engine.cs:69 | those three properties determine the stripped URL |
| Text.StripQueryOfConcat | Runtime/StandardHttp/Implementation/Engine.cs:248 | stripping a concatenation cuts at the first `?` of either part |
| Text.TrimEnd | Runtime/StandardHttp/Types/Root.cs:32 | the result is a prefix that does not end in the character, and only that character was removed |
| Text.TrimEndUnique | Runtime/StandardHttp/Types/Root.cs:32 | those properties determine the trimmed string |
| Text.Decimal | Runtime/StandardHttp/Types/Cursor.cs:34 | the rendering is a non-empty run of digits with no leading zero except for the number 0 itself |
| Text.DecimalRoundTrip | Runtime/StandardHttp/Types/Cursor.cs:34 | reading a number's decimal rendering gives back the number |
| Engine.RequestPolicy | Runtime/StandardHttp/Implementation/Engine.cs:34-46 | GET for List, One and View; POST for Create and Operation; Authorization first; a JSON content type on all but List and One, which are also the only ones skipping the 400 and 409 checks |
| Engine.Prepare | Runtime/StandardHttp/Implementation/Engine.cs:101-104 | the request carries the given URL and body, the operation's verb and the operation's headers |
| Engine.Send | Runtime/StandardHttp/Implementation/Engine.cs:110-120 | a request that could not be built is never sent and its exception is raised; otherwise exactly that request is sent, and an exception from the answer's checks is raised unchanged |
| Engine.AttachBody | Runtime/StandardHttp/Implementation/Engine.cs:105-109 | no body for absent data or an empty serialisation; the serialised bytes otherwise; FormatError when serialisation fails |
| Engine.ArgsQueryRoundTrip | Runtime/StandardHttp/Implementation/Engine.cs:249-256 | with an encoder that escapes `&`, `=` and `?`, the query splits back into one `key=value` per argument, in order |
| Engine.ArgsUrl | Runtime/StandardHttp/Implementation/Engine.cs:248-256 | the URL up to its first `?` is the stripped endpoint; without arguments there is no query; with them the URL is the stripped endpoint, one `?` and the `&`-joined encoded pairs, and it splits at `?` into exactly those two parts when the encoder never emits `&`, `=` or `?` |
| Engine.ListUrl | Runtime/StandardHttp/Implementation/Engine.cs:34 | the URL splits at `?` into exactly the stripped endpoint and the cursor's query |
| Engine.Receive | Runtime/StandardHttp/Implementation/Engine.cs:39-46 | a connection error throws Unreachable; a completed answer passes exactly when no check throws, and otherwise throws what the first throwing check throws, never a success code |
| Engine.List | Runtime/StandardHttp/Implementation/Engine.cs:31-49 | GET the stripped endpoint plus the cursor query with only the Authorization header; returns the parsed page exactly when the checks pass and the body parses, FormatError when it does not |
| Engine.One | Runtime/StandardHttp/Implementation/Engine.cs:66-84 | the same for one element, at the stripped endpoint |
| Engine.CreatedId | Runtime/StandardHttp/Implementation/Engine.cs:121-129 | an unparsable answer gives the empty id; a `null` document escapes as a null dereference; otherwise the document's id |
| Engine.Create | Runtime/StandardHttp/Implementation/Engine.cs:98-130 | nothing is sent when the data fails to serialise; POST with the authorization and JSON content type headers and the serialised element as body (none when it serialises to nothing); after the write checks, the lenient id |
| Engine.Update | Runtime/StandardHttp/Implementation/Engine.cs:144-168 | PATCH with the authorization and JSON content type headers and the serialised patch as body; returns exactly when the request was built and the write checks pass |
| Engine.Replace | Runtime/StandardHttp/Implementation/Engine.cs:181-205 | PUT with the authorization and JSON content type headers and the serialised replacement as body; returns exactly when the request was built and the write checks pass |
| Engine.Delete | Runtime/StandardHttp/Implementation/Engine.cs:216-235 | DELETE with no body; returns exactly when the write checks pass |
| Engine.View | Runtime/StandardHttp/Implementation/Engine.cs:245-273 | GET with the argument query and no body; the document exactly when the checks pass and it reads |
| Engine.Operation | Runtime/StandardHttp/Implementation/Engine.cs:284-318 | POST with the argument query and the optional body; the document exactly when the checks pass and it reads |
| Engine.OperationWithoutBody | Runtime/StandardHttp/Implementation/Engine.cs:328-332 | POST with no body, the authorization and JSON content type headers and the argument URL, with the same outcome as Operation |
| Engine.PassingStatuses | Runtime/StandardHttp/Implementation/Engine.cs:43-46 | a completed answer passes a write below 400 and a read up to 400 |
| Engine.ConnectionErrorIsUnreachable | Runtime/StandardHttp/Implementation/Engine_Common.cs:60-63 | whatever the operation, a connection error is received as the engine exception `Unreachable` with no detail |
| Resources.CollectionPath | Runtime/StandardHttp/Types/ListResource.cs:38 | the path is the base endpoint, one `/`, then the name |
| Resources.ItemPath | Runtime/StandardHttp/Types/ListResource.cs:66 | the path is the collection path, one `/`, then the id |
| Resources.MethodPath | Runtime/StandardHttp/Types/ListResource.cs:120 | the path is the collection path, `/~`, then the method name |
| Resources.ItemMethodPath | Runtime/StandardHttp/Types/ListResource.cs:159 | the path is the item path, `/~`, then the method name |
| Resources.PathSegments | Runtime/StandardHttp/Types/ListResource.cs:38 | with slash-free name, id and method, the paths split at `/` into the base's segments plus the name, the id and `~method` |
| Resources.PlainPathsAreSentAsBuilt | Runtime/StandardHttp/Types/ListResource.cs:66 | without any `?`, every path is sent unchanged |
| Resources.QueryInBaseCutsPath | Runtime/StandardHttp/Types/ListResource.cs:66 | a `?` in the base endpoint cuts the name, id and method off every request URL |
| Resources.QueryInHeadCuts | Runtime/StandardHttp/Implementation/Engine.cs:248 | a `?` in the head of a URL cuts everything appended after it |
| Resources.FromException | Runtime/StandardHttp/Types/Resource.cs:63-68 | the Result copies the exception's code, request error code and validation errors, and has no payload |
| Resources.WrapException | Runtime/StandardHttp/Types/Resource.cs:55-70 | a returned Result passes unchanged, an engine exception becomes its Result, any other exception propagates; an engine exception never escapes |
| Resources.WrapExceptionIdempotent | Runtime/StandardHttp/Types/Resource.cs:55-70 | wrapping an already wrapped outcome changes nothing: nothing `WrapException` lets through is an engine exception |
| Resources.Wrap | Runtime/StandardHttp/Types/Resource.cs:55-70 | a facade body's success Result is returned; a thrown engine exception is reported and any other propagates |
| ListResource.List | Runtime/StandardHttp/Types/ListResource.cs:33-46 | GET `{Base}/{Name}` with the cursor query; never throws for a cursor and authorization that are present; `Ok` with the page in `Elements` on success, otherwise the engine's exception as a Result |
| ListResource.Create | Runtime/StandardHttp/Types/ListResource.cs:48-59 | POST to `{Base}/{Name}`; `Created` with the lenient id; a `null` answer escapes; engine failures become Results |
| ListResource.Read | Runtime/StandardHttp/Types/ListResource.cs:61-74 | GET `{Base}/{Name}/{id}`; never throws for an authorization that is present; `Ok` with the element on success |
| ListResource.Update | Runtime/StandardHttp/Types/ListResource.cs:76-88 | PATCH `{Base}/{Name}/{id}`; a bare `Ok` on success |
| ListResource.Replace | Runtime/StandardHttp/Types/ListResource.cs:90-102 | PUT `{Base}/{Name}/{id}`; a bare `Ok` on success |
| ListResource.Delete | Runtime/StandardHttp/Types/ListResource.cs:104-114 | DELETE `{Base}/{Name}/{id}`; a bare `Ok` on success |
| ListResource.View | Runtime/StandardHttp/Types/ListResource.cs:116-127 | GET `{Base}/{Name}/~{method}` with the arguments; `Ok` with the document on success; a failing reader is reported |
| ListResource.Operation | Runtime/StandardHttp/Types/ListResource.cs:129-140 | POST `{Base}/{Name}/~{method}` with the arguments; the body is the serialised value, none when it is absent or serialises to nothing; `Ok` with the document on success |
| ListResource.OperationWithoutBody | Runtime/StandardHttp/Types/ListResource.cs:142-153 | the same with no body |
| ListResource.ItemView | Runtime/StandardHttp/Types/ListResource.cs:155-166 | GET `{Base}/{Name}/{id}/~{method}` with the arguments; `Ok` with the document on success |
| ListResource.ItemOperation | Runtime/StandardHttp/Types/ListResource.cs:168-179 | POST `{Base}/{Name}/{id}/~{method}` with the arguments; the body is the serialised value, none when it is absent or serialises to nothing; `Ok` with the document on success |
| ListResource.ItemOperationWithoutBody | Runtime/StandardHttp/Types/ListResource.cs:181-192 | the same with no body |
| SimpleResource.Create | Runtime/StandardHttp/Types/SimpleResource.cs:32-43 | POST to `{Base}/{Name}`; `Created` with the lenient id |
| SimpleResource.Read | Runtime/StandardHttp/Types/SimpleResource.cs:45-58 | GET `{Base}/{Name}`; never throws for an authorization that is present; `Ok` with the element on success |
| SimpleResource.Update | Runtime/StandardHttp/Types/SimpleResource.cs:60-72 | PATCH `{Base}/{Name}`; a bare `Ok` on success |
| SimpleResource.Replace | Runtime/StandardHttp/Types/SimpleResource.cs:74-86 | PUT `{Base}/{Name}`; a bare `Ok` on success |
| SimpleResource.Delete | Runtime/StandardHttp/Types/SimpleResource.cs:88-98 | DELETE `{Base}/{Name}`; a bare `Ok` on success |
| SimpleResource.NamedCall | Runtime/StandardHttp/Types/SimpleResource.cs:100-216 | each named call targets `{Base}/{Name}/~{method}`; the entry point's value is the `Ok` Result's element, and its engine exception becomes a Result |
| Roots.NewRoot | Runtime/StandardHttp/Types/Root.cs:29-34 | a missing base is reported before a missing authorization; the stored base is the given one without trailing `/` |
| Roots.NewRootIdempotent | Runtime/StandardHttp/Types/Root.cs:31-32 | building a root from a root's base changes nothing |
| Roots.ExampleRoot | Runtime/StandardHttp/Types/Root.cs:26 | `http://localhost:7777//` is stored as `http://localhost:7777` |
| Roots.GetSimple | Runtime/StandardHttp/Types/Root.cs:43-54 | succeeds exactly for string ids, with a resource holding the root's base and authorization |
| Roots.GetSimpleWithStringIds | Runtime/StandardHttp/Types/Root.cs:62-66 | the resource holds the name and the root's base and authorization |
| Roots.GetList | Runtime/StandardHttp/Types/Root.cs:77-89 | succeeds exactly for string ids and Cursor cursors |
| Roots.GetListWithStringIds | Runtime/StandardHttp/Types/Root.cs:99-103 | the resource holds the name and the root's base and authorization |
| Roots.RootPathsHaveSingleSeam | Runtime/StandardHttp/Types/Root.cs:32 | trailing slashes on the base never double up: the path is the trimmed base, one `/`, and the name |
| FacadeProperties.ReadByStatus | Runtime/StandardHttp/Types/ListResource.cs:61-74 | up to 400 a read gives the element, or FormatError for an unparsable body; above 400 the read table's code with nothing else |
| FacadeProperties.UpdateByStatus | Runtime/StandardHttp/Types/ListResource.cs:76-88 | below 400 an update gives a bare `Ok`; from 400 on, the write table's outcome, surfaced |
| FacadeProperties.ConflictMeansDifferentThings | Runtime/StandardHttp/Implementation/Engine.cs:78-81 | a 409 read is ClientError; a 409 delete is one of the conflict codes, or escapes exactly for a `null` body |
| FacadeProperties.ConnectionErrorReportsUnreachable | Runtime/StandardHttp/Implementation/Engine_Common.cs:60-63 | a connection error reaches the caller of `ListResource.List`, `ListResource.Read`, `ListResource.Delete` and `SimpleResource.Read` as a Result with code Unreachable |
| FacadeProperties.SentCallsReportUnreachable | Runtime/StandardHttp/Implementation/Engine_Common.cs:60-63 | a connection error reaches the caller of every write and method call whose request was sent as a Result with code `Unreachable` |
| FacadeProperties.ChecksThrow | Runtime/StandardHttp/Implementation/Engine_Errors.cs:74-75 | a check throws something other than the engine's exception only for a 400 or 409 answer whose body is `null` |
| FacadeProperties.OnlyNullBodiesEscape | Runtime/StandardHttp/Types/Resource.cs:61 | the only exception escaping a delete or update is that null dereference |
| FacadeProperties.WriteCode | Runtime/StandardHttp/Types/Resource.cs:55-70 | a write built the way the facades build it answers either `Ok` or a failure code, never another success code |
| FacadeProperties.NotAWriteSuccessCode | Runtime/Types/Results/ResultCode.cs:142-162 | `Ok` and every failure code differ from the write success codes `Updated`, `Replaced` and `Deleted` |
| FacadeProperties.UpdateAnswersOk | Runtime/StandardHttp/Types/ListResource.cs:76-88 | an update never answers Updated, Replaced or Deleted |
| FacadeProperties.ReplaceAnswersOk | Runtime/StandardHttp/Types/ListResource.cs:90-102 | a replace never answers Updated, Replaced or Deleted |
| FacadeProperties.DeleteAnswersOk | Runtime/StandardHttp/Types/ListResource.cs:104-114 | a delete never answers Updated, Replaced or Deleted |
| FacadeProperties.ListSendsCursor | Runtime/StandardHttp/Types/ListResource.cs:37-39 | the query of a page request reads back to the cursor |
| FacadeProperties.CreateIsLenient | Runtime/StandardHttp/Implementation/Engine.cs:121-129 | a successful create whose answer does not parse is still `Created`, with the empty id |

## Left out

- Transport, `async`/`await` and Unity's request objects are not modelled. The answer to each request is a parameter: a connection error or a completed status and body.
- JSON parsing and serialisation (Newtonsoft) and `HttpUtility.UrlEncode` are function parameters. The model does not describe their behaviour beyond malformed, `null` or a value.
- The arbitrary-document reader that `View` and `Operation` call is not part of this model. It is a parameter that returns a document or the engine's exception.
- The engine entry points behind the simple resource's named calls (`ViewToJson`, `OperationToJson`, `ViewToJsonArray`, `OperationToJsonArray`, `ViewTo`, `OperationTo`) are not part of this model. `SimpleResource.NamedCall` takes each one as a parameter.
- Engine.Receive: the status is a C# `long`; the model uses an unbounded integer, which only matters for statuses outside the 64-bit range that no answer carries.
- Engine.ArgsUrl: a `null` value in the argument dictionary would throw a null dereference in the code; the model's arguments are never `null`. The dictionary's enumeration order is taken as the given sequence.
- Roots.GetSimple, Roots.GetList: the C# type arguments are modelled as booleans ("the id type is `string`", "the cursor type is `Cursor`"); the element types play no part.
- The `IRoot`, `IListResource` and `ISimpleResource` interfaces are signatures only and add no behaviour.
- ListResource.List: the model's cursor and a resource's authorization are never `null`. In the code, a `null` cursor throws a null dereference when the query string is built (Runtime/StandardHttp/Implementation/Engine.cs:34), and a `Resource` built directly with a `null` authorization throws one when the header is built (Engine.cs:35). `WrapException` catches neither, so such calls throw. Both are caller errors that `Root` cannot produce for the authorization, and the model's types rule them out. `ListResource.Read`, `SimpleResource.Read` and every other facade call share the same authorization caveat.
- A `null` resource name or id interpolates as the empty string in C#; the model's names and ids are never `null`.
- The sample scripts and the exception message text are not modelled.

=== FILE: cursors.dfy ===
/** The paging cursor of list resources and its query-string form. */
module Cursors {
  import opened Wrappers
  import opened Text

  /** C#'s `ulong`. */
  newtype u64 = x: int | 0 <= x < 0x1_0000_0000_0000_0000

  /** An offset and a limit, both stored as given. */
  datatype Cursor = Cursor(offset: u64, limit: u64)

  /**
   `QueryString()`: `offset=<Offset>&limit=<Limit>`, both in decimal. The
   result holds exactly one `&`, between the two `key=value` parts.
   */
  function QueryString(c: Cursor): (q: string)
    ensures Split(q, '&') == ["offset=" + Decimal(c.offset as nat), "limit=" + Decimal(c.limit as nat)]
  {
    var parts := ["offset=" + Decimal(c.offset as nat), "limit=" + Decimal(c.limit as nat)];
    assert Join(parts, '&') == "offset=" + Decimal(c.offset as nat) + "&limit=" + Decimal(c.limit as nat);
    SplitOfJoin(parts, '&');
    "offset=" + Decimal(c.offset as nat) + "&limit=" + Decimal(c.limit as nat)
  }

  /** Reads a decimal that fits an unsigned 64-bit value. */
  function ParseU64(s: string): (r: Option<u64>)
    ensures r.Some? ==> ParseDecimal(s) == Some(r.value as nat)
  {
    match ParseDecimal(s)
    case Some(n) => if n < 0x1_0000_0000_0000_0000 then Some(n as u64) else None
    case None => None
  }

  /**
   The inverse of `QueryString`: split at `&`, expect the `offset=` and
   `limit=` prefixes in that order, and read the two numbers.
   */
  function ParseQueryString(q: string): (r: Option<Cursor>)
  {
    var parts := Split(q, '&');
    if |parts| != 2 then None
    else
      match (StripPrefix("offset=", parts[0]), StripPrefix("limit=", parts[1]))
      case (Some(o), Some(l)) =>
        (match (ParseU64(o), ParseU64(l))
         case (Some(offset), Some(limit)) => Some(Cursor(offset, limit))
         case _ => None)
      case _ => None
  }

  /** Reading a cursor's query string back recovers the cursor. */
  lemma QueryStringRoundTrip(c: Cursor)
    ensures ParseQueryString(QueryString(c)) == Some(c)
  {
    var o := Decimal(c.offset as nat);
    var l := Decimal(c.limit as nat);
    DecimalRoundTrip(c.offset as nat);
    DecimalRoundTrip(c.limit as nat);
    assert ("offset=" + o)[|"offset="|..] == o;
    assert ("limit=" + l)[|"limit="|..] == l;
  }

  /** Different cursors never share a query string. */
  lemma QueryStringInjective(c1: Cursor, c2: Cursor)
    requires QueryString(c1) == QueryString(c2)
    ensures c1 == c2
  {
    QueryStringRoundTrip(c1);
    QueryStringRoundTrip(c2);
  }

  /** The first page of twenty. */
  lemma FirstPageQueryString()
    ensures QueryString(Cursor(0, 20)) == "offset=0&limit=20"
  {
    assert Decimal(0) == "0";
    assert Decimal(2) == "2";
    assert Decimal(20) == Decimal(2) + [DigitChar(0)] == "20";
  }
}

=== FILE: engine.dfy ===
/**
 The engine's eight operations. Each one configures a request (URL, verb,
 headers, optional upload body), sends it, runs its check sequence over
 the answer and, when every check passes, reads the body. An operation
 here returns the request it sent (none when building the body already
 threw) and the outcome of the call; the transport's answer is an input.
 */
module Engine {
  import opened Wrappers
  import opened ResultCodes
  import opened Results
  import opened Http
  import opened EngineCommon
  import opened Wire
  import opened EngineErrors
  import opened Cursors
  import opened Text

  datatype Op = ListOp | OneOp | CreateOp | UpdateOp | ReplaceOp | DeleteOp | ViewOp | OperationOp

  function VerbOf(op: Op): Verb {
    match op
    case ListOp | OneOp | ViewOp => GET
    case CreateOp | OperationOp => POST
    case UpdateOp => PATCH
    case ReplaceOp => PUT
    case DeleteOp => DELETE
  }

  /** The headers set, in order: always the authorization, then the JSON content type except on reads. */
  function HeadersFor(op: Op, auth: Authorization): seq<Header> {
    if op == ListOp || op == OneOp then [AuthorizationHeader(auth)]
    else [AuthorizationHeader(auth), JsonContentType]
  }

  function ChecksFor(op: Op): seq<Check> {
    if op == ListOp || op == OneOp then ReadChecks else WriteChecks
  }

  /**
   Only the read-only operations use GET; every request is authorized;
   exactly the operations other than `List` and `One` declare a JSON body,
   and exactly those run the conflict and bad-request checks.
   */
  lemma RequestPolicy(op: Op, auth: Authorization)
    ensures VerbOf(op) == GET <==> op in {ListOp, OneOp, ViewOp}
    ensures VerbOf(op) == POST <==> op in {CreateOp, OperationOp}
    ensures HeadersFor(op, auth)[0] == AuthorizationHeader(auth)
    ensures JsonContentType in HeadersFor(op, auth) <==> op !in {ListOp, OneOp}
    ensures ConflictCheck in ChecksFor(op) <==> JsonContentType in HeadersFor(op, auth)
    ensures BadRequestCheck in ChecksFor(op) <==> ConflictCheck in ChecksFor(op)
  {
    assert AuthorizationHeader(auth) != JsonContentType;
  }

  /** A configured request for `op`. */
  function Prepare(op: Op, url: string, auth: Authorization, body: Option<Body>): (req: Request)
    ensures req.url == url && req.body == body
    ensures req.verb == VerbOf(op) && req.headers == HeadersFor(op, auth)
  {
    Request(url, VerbOf(op), HeadersFor(op, auth), body)
  }

  /** The upload body: attached only for a non-null value that serialises to some bytes. */
  function AttachBody<T>(data: Option<T>, serializer: Serializer<T>): (r: Outcome<Option<Body>>)
    ensures r.Raise? <==> data.Some? && serializer(data.value).None?
    ensures r.Raise? ==> r.thrown == EngineError(Plain(FormatError))
    ensures r.Return? && r.value.Some? ==>
      data.Some? && serializer(data.value) == r.value && |r.value.value| > 0
    ensures r.Return? && r.value.None? ==> data.None? || serializer(data.value) == Some([])
  {
    match data
    case None => Return(None)
    case Some(value) =>
      match Serialize(serializer, value, FormatError)
      case Raise(t) => Raise(t)
      case Return(bytes) => Return(if |bytes| == 0 then None else Some(bytes))
  }

  /** The `key=value` pairs of a query, each side URL-encoded. */
  function EncodedPairs(args: seq<(string, string)>, urlEncode: string -> string): (pairs: seq<string>)
    ensures |pairs| == |args|
    ensures forall i :: 0 <= i < |args| ==> pairs[i] == urlEncode(args[i].0) + "=" + urlEncode(args[i].1)
    decreases |args|
  {
    if |args| == 0 then []
    else [urlEncode(args[0].0) + "=" + urlEncode(args[0].1)] + EncodedPairs(args[1..], urlEncode)
  }

  /** The pairs joined by `&`. */
  function ArgsQuery(args: seq<(string, string)>, urlEncode: string -> string): string {
    Join(EncodedPairs(args, urlEncode), '&')
  }

  /** An encoder that, as URL encoding does, never emits the query delimiters. */
  ghost predicate QuerySafe(urlEncode: string -> string) {
    forall s :: '&' !in urlEncode(s) && '=' !in urlEncode(s) && '?' !in urlEncode(s)
  }

  /**
   Splitting a non-empty query at `&`, and each part at `=`, recovers the
   encoded keys and values in order.
   */
  lemma ArgsQueryRoundTrip(args: seq<(string, string)>, urlEncode: string -> string)
    requires |args| > 0
    requires QuerySafe(urlEncode)
    ensures Split(ArgsQuery(args, urlEncode), '&') == EncodedPairs(args, urlEncode)
    ensures forall i :: 0 <= i < |args| ==>
      Split(EncodedPairs(args, urlEncode)[i], '=') == [urlEncode(args[i].0), urlEncode(args[i].1)]
  {
    var pairs := EncodedPairs(args, urlEncode);
    forall i | 0 <= i < |args|
      ensures '&' !in pairs[i]
      ensures Split(pairs[i], '=') == [urlEncode(args[i].0), urlEncode(args[i].1)]
    {
      SplitPair(urlEncode(args[i].0), urlEncode(args[i].1));
    }
    SplitOfJoin(pairs, '&');
  }

  /** One encoded `key=value` pair has no `&` and splits at its single `=`. */
  lemma SplitPair(k: string, v: string)
    requires '&' !in k && '&' !in v && '=' !in k && '=' !in v
    ensures '&' !in k + "=" + v
    ensures Split(k + "=" + v, '=') == [k, v]
  {
    assert k + "=" + v == k + ['='] + v;
    SplitAtSeparator(k, v, '=');
    SplitWithoutSeparator(k, '=');
    SplitWithoutSeparator(v, '=');
  }

  /**
   The URL of `View` and `Operation`: the endpoint up to its first `?`,
   then `?` and the query when the arguments are present and non-empty.
   */
  function ArgsUrl(endpoint: string, args: Option<seq<(string, string)>>, urlEncode: string -> string): (url: string)
    ensures StripQuery(url) == StripQuery(endpoint)
    ensures args.None? || |args.value| == 0 ==> url == StripQuery(endpoint)
    ensures args.Some? && |args.value| > 0 ==> url == StripQuery(endpoint) + "?" + ArgsQuery(args.value, urlEncode)
    ensures QuerySafe(urlEncode) && args.Some? && |args.value| > 0 ==>
      Split(url, '?') == [StripQuery(endpoint), ArgsQuery(args.value, urlEncode)]
  {
    var base := StripQuery(endpoint);
    StripQueryIdempotent(endpoint);
    if args.Some? && |args.value| > 0 then
      var query := ArgsQuery(args.value, urlEncode);
      StripQueryOfQueried(endpoint, query);
      QueryAfterMark(base, args.value, urlEncode);
      base + "?" + query
    else
      base
  }

  /** With a query-safe encoder, the first `?` of a queried URL is the one added. */
  lemma QueryAfterMark(base: string, args: seq<(string, string)>, urlEncode: string -> string)
    requires '?' !in base
    ensures QuerySafe(urlEncode) ==>
      Split(base + "?" + ArgsQuery(args, urlEncode), '?') == [base, ArgsQuery(args, urlEncode)]
  {
    if QuerySafe(urlEncode) {
      var query := ArgsQuery(args, urlEncode);
      NoQueryMarkInArgs(args, urlEncode);
      SplitAtSeparator(base, query, '?');
      SplitWithoutSeparator(base, '?');
      SplitWithoutSeparator(query, '?');
      assert base + "?" + query == base + ['?'] + query;
    }
  }

  lemma NoQueryMarkInArgs(args: seq<(string, string)>, urlEncode: string -> string)
    requires QuerySafe(urlEncode)
    ensures '?' !in ArgsQuery(args, urlEncode)
  {
    var pairs := EncodedPairs(args, urlEncode);
    forall i | 0 <= i < |pairs|
      ensures '?' !in pairs[i]
    {
      assert pairs[i] == urlEncode(args[i].0) + "=" + urlEncode(args[i].1);
    }
    NoMarkInJoin(pairs, '&', '?');
  }

  lemma {:induction false} NoMarkInJoin(parts: seq<string>, c: char, mark: char)
    requires mark != c
    requires forall i :: 0 <= i < |parts| ==> mark !in parts[i]
    ensures mark !in Join(parts, c)
    decreases |parts|
  {
    if |parts| > 1 {
      NoMarkInJoin(parts[1..], c, mark);
    }
  }

  /** The URL of `List`: the endpoint up to its first `?`, then `?` and the cursor's query. */
  function ListUrl(endpoint: string, cursor: Cursor): (url: string)
    ensures Split(url, '?') == [StripQuery(endpoint), QueryString(cursor)]
  {
    var base := StripQuery(endpoint);
    var query := QueryString(cursor);
    NoQueryMarkInCursor(cursor);
    SplitAtSeparator(base, query, '?');
    SplitWithoutSeparator(base, '?');
    SplitWithoutSeparator(query, '?');
    assert base + "?" + query == base + ['?'] + query;
    base + "?" + query
  }

  lemma NoQueryMarkInCursor(cursor: Cursor)
    ensures '?' !in QueryString(cursor)
  {
    var o := Decimal(cursor.offset as nat);
    var l := Decimal(cursor.limit as nat);
    assert QueryString(cursor) == "offset=" + o + "&limit=" + l;
  }

  /**
   Sending and checking: a connection error throws `Unreachable`; a
   completed answer goes through the operation's checks, and the body is
   handed on only when all of them pass.
   */
  function Receive(op: Op, response: Response, codec: Codec): (r: Outcome<Body>)
    ensures response.ConnectionError? ==> r == Raise(EngineError(Plain(Unreachable)))
    ensures response.Completed? ==>
      (r.Return? <==> Classify(ChecksFor(op), response.status, response.body, codec).None?)
    ensures response.Completed? && r.Raise? ==>
      Some(r.thrown) == Classify(ChecksFor(op), response.status, response.body, codec)
    ensures r.Return? ==> r.value == response.body
    ensures r.Raise? && r.thrown.EngineError? ==> !IsSuccess(r.thrown.error.code)
  {
    match SendRequest(response)
    case Raise(t) => Raise(t)
    case Return((status, body)) =>
      ClassifyNeverSucceeds(ChecksFor(op), status, body, codec);
      match Classify(ChecksFor(op), status, body, codec)
      case Some(t) => Raise(t)
      case None => Return(body)
  }

  /** The request that was sent (if any) and the outcome of the call. */
  datatype Exchange<+T> = Exchange(sent: Option<Request>, outcome: Outcome<T>)

  /** Sends `request` unless building it threw, then finishes with the checked body. */
  function Send<T>(op: Op, request: Outcome<Request>, response: Response, codec: Codec,
                   finish: Body -> Outcome<T>): (x: Exchange<T>)
    ensures request.Raise? ==> x.sent.None? && x.outcome.Raise? && x.outcome.thrown == request.thrown
    ensures request.Return? ==> x.sent == Some(request.value)
    ensures request.Return? && Receive(op, response, codec).Raise? ==>
      x.outcome.Raise? && x.outcome.thrown == Receive(op, response, codec).thrown
  {
    match request
    case Raise(t) => Exchange(None, Raise(t))
    case Return(req) =>
      Exchange(Some(req),
        match Receive(op, response, codec)
        case Raise(t) => Raise(t)
        case Return(body) => finish(body))
  }

  /** True when the answer passes every check of `op`. */
  predicate Passes(op: Op, response: Response, codec: Codec) {
    Receive(op, response, codec).Return?
  }

  /** `List`: GET the stripped endpoint plus the cursor query; the body is the page. */
  function List<E>(endpoint: string, auth: Authorization, cursor: Cursor,
                   response: Response, codec: Codec, parser: Parser<seq<E>>): (x: Exchange<Option<seq<E>>>)
    ensures x.sent.Some? && x.sent.value.url == ListUrl(endpoint, cursor)
    ensures x.sent.value.verb == GET && x.sent.value.body.None?
    ensures x.sent.value.headers == [AuthorizationHeader(auth)]
    ensures x.outcome.Return? <==> Passes(ListOp, response, codec) && !parser(response.body).Malformed?
    ensures x.outcome.Return? ==> x.outcome.value == Parsed(parser(response.body))
    ensures !Passes(ListOp, response, codec) ==> x.outcome == Raise(Receive(ListOp, response, codec).thrown)
    ensures Passes(ListOp, response, codec) && parser(response.body).Malformed? ==>
      x.outcome == Raise(EngineError(Plain(FormatError)))
    ensures x.outcome.Raise? ==> x.outcome.thrown.EngineError?
  {
    Send(ListOp, Return(Prepare(ListOp, ListUrl(endpoint, cursor), auth, None)), response, codec,
      body => Deserialize(parser, body))
  }

  /** `One`: GET the stripped endpoint; the body is the element. */
  function One<E>(endpoint: string, auth: Authorization,
                  response: Response, codec: Codec, parser: Parser<E>): (x: Exchange<Option<E>>)
    ensures x.sent.Some? && x.sent.value.url == StripQuery(endpoint)
    ensures x.sent.value.verb == GET && x.sent.value.body.None?
    ensures x.sent.value.headers == [AuthorizationHeader(auth)]
    ensures x.outcome.Return? <==> Passes(OneOp, response, codec) && !parser(response.body).Malformed?
    ensures x.outcome.Return? ==> x.outcome.value == Parsed(parser(response.body))
    ensures !Passes(OneOp, response, codec) ==> x.outcome == Raise(Receive(OneOp, response, codec).thrown)
    ensures Passes(OneOp, response, codec) && parser(response.body).Malformed? ==>
      x.outcome == Raise(EngineError(Plain(FormatError)))
    ensures x.outcome.Raise? ==> x.outcome.thrown.EngineError?
  {
    Send(OneOp, Return(Prepare(OneOp, StripQuery(endpoint), auth, None)), response, codec,
      body => Deserialize(parser, body))
  }

  /**
   The id of a created element. A body that does not parse gives `""`
   instead of failing (the handler catches the engine's own exception);
   a `null` document fails on `.Id` with an exception nothing catches.
   */
  function CreatedId(parser: Parser<CreatedBody>, body: Body): (r: Outcome<Option<string>>)
    ensures parser(body).Malformed? ==> r == Return(Some(""))
    ensures parser(body).NullValue? ==> r == Raise(NullReference)
    ensures parser(body).Value? ==> r == Return(parser(body).value.id)
  {
    match Deserialize(parser, body)
    case Raise(EngineError(_)) => Return(Some(""))
    case Raise(t) => Raise(t)
    case Return(None) => Raise(NullReference)
    case Return(Some(created)) => Return(created.id)
  }

  /** A request whose body may fail to serialise. */
  function WithBody<T>(op: Op, url: string, auth: Authorization, data: Option<T>,
                       serializer: Serializer<T>): (r: Outcome<Request>)
    ensures r.Raise? <==> data.Some? && serializer(data.value).None?
    ensures r.Raise? ==> r.thrown == EngineError(Plain(FormatError))
    ensures r.Return? ==> r.value == Prepare(op, url, auth, AttachBody(data, serializer).value)
  {
    match AttachBody(data, serializer)
    case Raise(t) => Raise(t)
    case Return(body) => Return(Prepare(op, url, auth, body))
  }

  /** `Create`: POST the serialised element; the answer's id, leniently. */
  function Create<E>(endpoint: string, auth: Authorization, data: Option<E>, serializer: Serializer<E>,
                     response: Response, codec: Codec): (x: Exchange<Option<string>>)
    ensures x.sent.None? <==> data.Some? && serializer(data.value).None?
    ensures x.sent.None? ==> x.outcome == Raise(EngineError(Plain(FormatError)))
    ensures x.sent.Some? ==> x.sent.value.url == StripQuery(endpoint) && x.sent.value.verb == POST
    ensures x.sent.Some? ==> x.sent.value.headers == [AuthorizationHeader(auth), JsonContentType]
    ensures x.sent.Some? ==> x.sent.value.body == AttachBody(data, serializer).value
    ensures x.sent.Some? && Passes(CreateOp, response, codec) ==>
      x.outcome == CreatedId(codec.created, response.body)
    ensures x.sent.Some? && !Passes(CreateOp, response, codec) ==>
      x.outcome == Raise(Receive(CreateOp, response, codec).thrown)
  {
    Send(CreateOp, WithBody(CreateOp, StripQuery(endpoint), auth, data, serializer), response, codec,
      body => CreatedId(codec.created, body))
  }

  /** The outcome of the operations that return nothing: the checks alone decide. */
  function Nothing(body: Body): Outcome<()> {
    Return(())
  }

  /** `Update`: PATCH the serialised MongoDB-style patch document. */
  function Update(endpoint: string, auth: Authorization, patch: Option<JObject>, serializer: Serializer<JObject>,
                  response: Response, codec: Codec): (x: Exchange<()>)
    ensures x.sent.None? <==> patch.Some? && serializer(patch.value).None?
    ensures x.sent.Some? ==> x.sent.value.url == StripQuery(endpoint) && x.sent.value.verb == PATCH
    ensures x.sent.Some? ==> x.sent.value.headers == [AuthorizationHeader(auth), JsonContentType]
    ensures x.sent.Some? ==> x.sent.value.body == AttachBody(patch, serializer).value
    ensures x.sent.Some? ==> (x.outcome.Return? <==> Passes(UpdateOp, response, codec))
    ensures x.sent.None? ==> x.outcome == Raise(EngineError(Plain(FormatError)))
    ensures x.sent.Some? && !Passes(UpdateOp, response, codec) ==> x.outcome == Raise(Receive(UpdateOp, response, codec).thrown)
  {
    Send(UpdateOp, WithBody(UpdateOp, StripQuery(endpoint), auth, patch, serializer), response, codec, Nothing)
  }

  /** `Replace`: PUT the serialised replacement. */
  function Replace<E>(endpoint: string, auth: Authorization, replacement: Option<E>, serializer: Serializer<E>,
                      response: Response, codec: Codec): (x: Exchange<()>)
    ensures x.sent.None? <==> replacement.Some? && serializer(replacement.value).None?
    ensures x.sent.Some? ==> x.sent.value.url == StripQuery(endpoint) && x.sent.value.verb == PUT
    ensures x.sent.Some? ==> x.sent.value.headers == [AuthorizationHeader(auth), JsonContentType]
    ensures x.sent.Some? ==> x.sent.value.body == AttachBody(replacement, serializer).value
    ensures x.sent.Some? ==> (x.outcome.Return? <==> Passes(ReplaceOp, response, codec))
    ensures x.sent.None? ==> x.outcome == Raise(EngineError(Plain(FormatError)))
    ensures x.sent.Some? && !Passes(ReplaceOp, response, codec) ==> x.outcome == Raise(Receive(ReplaceOp, response, codec).thrown)
  {
    Send(ReplaceOp, WithBody(ReplaceOp, StripQuery(endpoint), auth, replacement, serializer), response, codec, Nothing)
  }

  /** `Delete`: DELETE the stripped endpoint, never with a body. */
  function Delete(endpoint: string, auth: Authorization, response: Response, codec: Codec): (x: Exchange<()>)
    ensures x.sent.Some? && x.sent.value.url == StripQuery(endpoint)
    ensures x.sent.value.verb == DELETE && x.sent.value.body.None?
    ensures x.sent.value.headers == [AuthorizationHeader(auth), JsonContentType]
    ensures x.outcome.Return? <==> Passes(DeleteOp, response, codec)
    ensures x.outcome.Raise? ==> x.outcome == Raise(Receive(DeleteOp, response, codec).thrown)
  {
    Send(DeleteOp, Return(Prepare(DeleteOp, StripQuery(endpoint), auth, None)), response, codec, Nothing)
  }

  /**
   `View`: GET with the query arguments, never with a body. The answer is
   read by the library's arbitrary-document reader, which returns a
   document or throws the engine's exception.
   */
  function View(endpoint: string, auth: Authorization, args: Option<seq<(string, string)>>,
                urlEncode: string -> string, response: Response, codec: Codec,
                readDocument: Body -> Attempt<JObject>): (x: Exchange<JObject>)
    ensures x.sent.Some? && x.sent.value.url == ArgsUrl(endpoint, args, urlEncode)
    ensures x.sent.value.verb == GET && x.sent.value.body.None?
    ensures x.sent.value.headers == [AuthorizationHeader(auth), JsonContentType]
    ensures x.outcome.Return? <==> Passes(ViewOp, response, codec) && readDocument(response.body).Done?
    ensures x.outcome.Return? ==> readDocument(response.body) == Done(x.outcome.value)
    ensures !Passes(ViewOp, response, codec) ==> x.outcome == Raise(Receive(ViewOp, response, codec).thrown)
    ensures Passes(ViewOp, response, codec) && readDocument(response.body).Failed? ==>
      x.outcome == Raise(EngineError(readDocument(response.body).error))
  {
    Send(ViewOp, Return(Prepare(ViewOp, ArgsUrl(endpoint, args, urlEncode), auth, None)), response, codec,
      body => Lift(readDocument(body)))
  }

  /** `Operation`: POST with the query arguments and the optional serialised body. */
  function Operation<E>(endpoint: string, auth: Authorization, args: Option<seq<(string, string)>>,
                        urlEncode: string -> string, body: Option<E>, serializer: Serializer<E>,
                        response: Response, codec: Codec,
                        readDocument: Body -> Attempt<JObject>): (x: Exchange<JObject>)
    ensures x.sent.None? <==> body.Some? && serializer(body.value).None?
    ensures x.sent.Some? ==> x.sent.value.url == ArgsUrl(endpoint, args, urlEncode) && x.sent.value.verb == POST
    ensures x.sent.Some? ==> x.sent.value.headers == [AuthorizationHeader(auth), JsonContentType]
    ensures x.sent.Some? ==> x.sent.value.body == AttachBody(body, serializer).value
    ensures x.outcome.Return? <==>
      x.sent.Some? && Passes(OperationOp, response, codec) && readDocument(response.body).Done?
    ensures x.outcome.Return? ==> readDocument(response.body) == Done(x.outcome.value)
    ensures x.sent.None? ==> x.outcome == Raise(EngineError(Plain(FormatError)))
    ensures x.sent.Some? && !Passes(OperationOp, response, codec) ==>
      x.outcome == Raise(Receive(OperationOp, response, codec).thrown)
    ensures x.sent.Some? && Passes(OperationOp, response, codec) && readDocument(response.body).Failed? ==>
      x.outcome == Raise(EngineError(readDocument(response.body).error))
  {
    Send(OperationOp, WithBody(OperationOp, ArgsUrl(endpoint, args, urlEncode), auth, body, serializer),
      response, codec, b => Lift(readDocument(b)))
  }

  /** The serialiser never consulted for an absent body. */
  function NoSerializer(nothing: ()): Option<Body> {
    None
  }

  /** The body-less `Operation`: delegates with a `null` body. */
  function OperationWithoutBody(endpoint: string, auth: Authorization, args: Option<seq<(string, string)>>,
                                urlEncode: string -> string, response: Response, codec: Codec,
                                readDocument: Body -> Attempt<JObject>): (x: Exchange<JObject>)
    ensures x.sent.Some? && x.sent.value.body.None? && x.sent.value.verb == POST
    ensures x.sent.value.url == ArgsUrl(endpoint, args, urlEncode)
    ensures x.sent.value.headers == [AuthorizationHeader(auth), JsonContentType]
    ensures x.outcome.Return? <==> Passes(OperationOp, response, codec) && readDocument(response.body).Done?
    ensures x.outcome.Return? ==> readDocument(response.body) == Done(x.outcome.value)
    ensures !Passes(OperationOp, response, codec) ==>
      x.outcome == Raise(Receive(OperationOp, response, codec).thrown)
    ensures Passes(OperationOp, response, codec) && readDocument(response.body).Failed? ==>
      x.outcome == Raise(EngineError(readDocument(response.body).error))
  {
    Operation<()>(endpoint, auth, args, urlEncode, None, NoSerializer, response, codec, readDocument)
  }

  /** A connection error is reported as `Unreachable` before any status is looked at. */
  lemma ConnectionErrorIsUnreachable(op: Op, codec: Codec)
    ensures Receive(op, ConnectionError, codec) == Raise(EngineError(Plain(Unreachable)))
  {
  }

  /**
   For the six operations that run all checks, a completed answer passes
   exactly when its status is below 400; `List` and `One` also pass a 400.
   */
  lemma PassingStatuses(op: Op, status: int, body: Body, codec: Codec)
    ensures op !in {ListOp, OneOp} ==> (Passes(op, Completed(status, body), codec) <==> status < 400)
    ensures op in {ListOp, OneOp} ==> (Passes(op, Completed(status, body), codec) <==> status <= 400)
  {
    WriteChecksCoverErrors(status, body, codec);
    ReadChecksCoverErrors(status, body, codec);
  }
}

=== FILE: engine_common.dfy ===
/**
 The engine's exception record, the outcome of a call that may throw, the
 connection check done after sending, and the (de)serialisation wrappers
 around the JSON library. The JSON library itself is an oracle: a parser
 maps bytes to `Malformed`, `NullValue` (the library yields `null`, as it
 does for an empty document) or a value; a serialiser maps a value to bytes
 or `None` when it throws.
 */
module EngineCommon {
  import opened Wrappers
  import opened ResultCodes
  import opened Results
  import opened Http

  /** `Engine.Exception`: a result code plus at most one kind of detail. */
  datatype EngineException = EngineException(
    code: ResultCode,
    requestErrorCode: Option<string>,
    validationErrors: Option<JObject>)
  {
    /** Never both a request error code and validation errors. */
    predicate Exclusive() {
      !(requestErrorCode.Some? && validationErrors.Some?)
    }
  }

  /** The `(code, errors = null)` constructor. */
  function WithErrors(code: ResultCode, errors: Option<JObject>): (e: EngineException)
    ensures e.code == code && e.validationErrors == errors
    ensures e.requestErrorCode.None? && e.Exclusive()
  {
    EngineException(code, None, errors)
  }

  /** The `(code, requestErrorCode)` constructor. */
  function WithRequestCode(code: ResultCode, requestErrorCode: Option<string>): (e: EngineException)
    ensures e.code == code && e.requestErrorCode == requestErrorCode
    ensures e.validationErrors.None? && e.Exclusive()
  {
    EngineException(code, requestErrorCode, None)
  }

  /** An exception with nothing but its code (`new Exception(code)`). */
  function Plain(code: ResultCode): EngineException {
    WithErrors(code, None)
  }

  /**
   What a call may throw: the engine's own exception, or one of the .NET
   exceptions the code can raise besides it.
   */
  datatype Thrown =
    | EngineError(error: EngineException)
    | NullReference
    | ArgumentNull(paramName: string)
    | ArgumentError(message: string)

  /** A call that returns a value or throws. */
  datatype Outcome<+T> = Return(value: T) | Raise(thrown: Thrown)

  /** A call that returns a value or throws only `Engine.Exception`. */
  datatype Attempt<+T> = Done(value: T) | Failed(error: EngineException)

  function Lift<T>(a: Attempt<T>): (r: Outcome<T>)
    ensures r.Return? <==> a.Done?
    ensures a.Done? ==> r.value == a.value
    ensures a.Failed? ==> r.thrown == EngineError(a.error)
  {
    match a
    case Done(v) => Return(v)
    case Failed(e) => Raise(EngineError(e))
  }

  /** What the JSON library makes of a byte array. */
  datatype Parse<+T> = Malformed | NullValue | Value(value: T)

  /** What a parse hands the caller: the value, or `null` for a `null` document (and for no document). */
  function Parsed<T>(p: Parse<T>): (r: Option<T>)
    ensures r.Some? <==> p.Value?
    ensures r.Some? ==> p == Value(r.value)
  {
    if p.Value? then Some(p.value) else None
  }

  type Parser<T> = Body -> Parse<T>

  type Serializer<!T> = T -> Option<Body>

  /**
   `SendRequest`: a connection error raises `Unreachable` before any status
   is looked at; otherwise the status and body are handed on.
   */
  function SendRequest(response: Response): (r: Outcome<(int, Body)>)
    ensures r.Raise? <==> response.ConnectionError?
    ensures r.Raise? ==> r.thrown == EngineError(Plain(Unreachable))
    ensures r.Return? ==> r.value == (response.status, response.body)
  {
    match response
    case ConnectionError => Raise(EngineError(Plain(Unreachable)))
    case Completed(status, body) => Return((status, body))
  }

  /**
   `Deserialize<T>(data, resultCode)`: any parse failure becomes exactly the
   supplied code; a `null` document comes back as `None`.
   */
  function DeserializeOr<T>(parser: Parser<T>, data: Body, code: ResultCode): (r: Outcome<Option<T>>)
    ensures r.Raise? <==> parser(data).Malformed?
    ensures r.Raise? ==> r.thrown == EngineError(Plain(code))
    ensures r.Return? ==> (r.value.None? <==> parser(data).NullValue?)
    ensures r.Return? && r.value.Some? ==> parser(data) == Value(r.value.value)
  {
    match parser(data)
    case Malformed => Raise(EngineError(Plain(code)))
    case NullValue => Return(None)
    case Value(v) => Return(Some(v))
  }

  /** `Deserialize<T>(data)`: the same, failing with `FormatError`. */
  function Deserialize<T>(parser: Parser<T>, data: Body): (r: Outcome<Option<T>>)
    ensures r.Raise? <==> parser(data).Malformed?
    ensures r.Raise? ==> r.thrown == EngineError(Plain(FormatError))
    ensures r.Return? ==> (r.value.None? <==> parser(data).NullValue?)
    ensures r.Return? && r.value.Some? ==> parser(data) == Value(r.value.value)
  {
    DeserializeOr(parser, data, FormatError)
  }

  /**
   `DeserializeJObject` / `DeserializeJArray`: the document must parse (a
   `null` document does not parse as an object or array); any failure is
   `FormatError`.
   */
  function DeserializeDocument<D>(parse: Body -> Option<D>, data: Body): (r: Outcome<D>)
    ensures r.Raise? <==> parse(data).None?
    ensures r.Raise? ==> r.thrown == EngineError(Plain(FormatError))
    ensures r.Return? ==> parse(data) == Some(r.value)
  {
    match parse(data)
    case None => Raise(EngineError(Plain(FormatError)))
    case Some(d) => Return(d)
  }

  /** `Serialize(data, errorCode)`: a serialiser failure raises the supplied code. */
  function Serialize<T>(serializer: Serializer<T>, data: T, errorCode: ResultCode): (r: Outcome<Body>)
    ensures r.Raise? <==> serializer(data).None?
    ensures r.Raise? ==> r.thrown == EngineError(Plain(errorCode))
    ensures r.Return? ==> serializer(data) == Some(r.value)
  {
    match serializer(data)
    case None => Raise(EngineError(Plain(errorCode)))
    case Some(bytes) => Return(bytes)
  }
}

=== FILE: engine_errors.dfy ===
/**
 The status classifier: six checks, each either passing or throwing, run
 in a fixed order by every engine operation so that the first check that
 throws decides the outcome.
 */
module EngineErrors {
  import opened Wrappers
  import opened ResultCodes
  import opened Results
  import opened Http
  import opened EngineCommon
  import opened Wire

  /** The statuses that are classified by their number alone, and their codes. */
  const StatusTable: map<int, ResultCode> := map[
    401 := Unauthorized, 403 := Forbidden, 404 := DoesNotExist, 410 := DoesNotExist,
    405 := Unsupported,
    406 := FormatError, 415 := FormatError,
    500 := InternalError, 502 := Unreachable, 503 := ServiceUnavailable, 504 := Timeout]

  const AccessStatuses: set<int> := {401, 403, 404, 405, 410}
  const FormatStatuses: set<int> := {406, 415}
  const ServerStatuses: set<int> := {500, 502, 503, 504}

  /** The outcome of throwing `new Exception(code)`. */
  function Raised(code: ResultCode): Option<Thrown> {
    Some(EngineError(Plain(code)))
  }

  /** `FailOnAccess`: 401, 403, 404/410 and 405 throw; every other status passes. */
  function FailOnAccess(status: int): (r: Option<Thrown>)
    ensures r.Some? <==> status in AccessStatuses
    ensures r.Some? ==> r == Raised(StatusTable[status])
    ensures r.Some? ==> CategoryOf(r.value.error.code) == Access
  {
    if status == 401 then Raised(Unauthorized)
    else if status == 403 then Raised(Forbidden)
    else if status == 404 || status == 410 then Raised(DoesNotExist)
    else if status == 405 then Raised(Unsupported)
    else None
  }

  /** `FailOnServerError`: 500, 502, 503 and 504 throw; every other status passes. */
  function FailOnServerError(status: int): (r: Option<Thrown>)
    ensures r.Some? <==> status in ServerStatuses
    ensures r.Some? ==> r == Raised(StatusTable[status])
    ensures r.Some? ==> CategoryOf(r.value.error.code) == Server
  {
    if status == 500 then Raised(InternalError)
    else if status == 502 then Raised(Unreachable)
    else if status == 503 then Raised(ServiceUnavailable)
    else if status == 504 then Raised(Timeout)
    else None
  }

  /** `FailOnFormatError`: 406 and 415 throw `FormatError`; nothing else does. */
  function FailOnFormatError(status: int): (r: Option<Thrown>)
    ensures r.Some? <==> status in FormatStatuses
    ensures r.Some? ==> r == Raised(FormatError) && StatusTable[status] == FormatError
  {
    if status == 406 || status == 415 then Raised(FormatError) else None
  }

  /** The codes of a 400 body that are not reported as a plain `BadRequest`. */
  const KnownBadRequestCodes: set<string> :=
    {"authorization:missing-header", "authorization:bad-scheme", "schema:invalid", "format:unexpected"}

  /** The exception a parsed 400 body turns into. */
  function BadRequestError(br: BadRequestBody): (e: EngineException)
    ensures e.Exclusive()
    ensures e.code == Unauthorized <==>
      br.code == Some("authorization:missing-header") || br.code == Some("authorization:bad-scheme")
    ensures e.code == ValidationError <==> br.code == Some("schema:invalid")
    ensures e.code == FormatError <==> br.code == Some("format:unexpected")
    ensures e.code == BadRequest <==> br.code.None? || br.code.value !in KnownBadRequestCodes
    ensures e.code in {Unauthorized, ValidationError, FormatError, BadRequest}
    ensures e.validationErrors == (if e.code == ValidationError then br.validationErrors else None)
    ensures e.requestErrorCode == (if e.code == BadRequest then br.code else None)
  {
    match br.code
    case Some("authorization:missing-header") => Plain(Unauthorized)
    case Some("authorization:bad-scheme") => Plain(Unauthorized)
    case Some("schema:invalid") => WithErrors(ValidationError, br.validationErrors)
    case Some("format:unexpected") => Plain(FormatError)
    case _ => WithRequestCode(BadRequest, br.code)
  }

  /**
   `FailOnBadRequest`: passes unless the status is 400; on 400 it always
   throws. A body that does not parse throws `FormatError`; a `null` body
   fails on `badRequest.Code` with a `NullReferenceException`.
   */
  function FailOnBadRequest(status: int, body: Body, parser: Parser<BadRequestBody>): (r: Option<Thrown>)
    ensures r.Some? <==> status == 400
    ensures r.Some? && parser(body).Malformed? ==> r == Raised(FormatError)
    ensures r.Some? && parser(body).NullValue? ==> r == Some(NullReference)
    ensures r.Some? && parser(body).Value? ==> r == Some(EngineError(BadRequestError(parser(body).value)))
  {
    if status == 400 then
      match Deserialize(parser, body)
      case Raise(t) => Some(t)
      case Return(None) => Some(NullReference)
      case Return(Some(br)) => Some(EngineError(BadRequestError(br)))
    else
      None
  }

  /** The code a parsed 409 body turns into. */
  function ConflictCode(code: Option<string>): (c: ResultCode)
    ensures c in {AlreadyExists, InUse, DuplicateKey, Conflict}
    ensures c == AlreadyExists <==> code == Some("already-exists")
    ensures c == InUse <==> code == Some("in-use")
    ensures c == DuplicateKey <==> code == Some("duplicate-key")
  {
    match code
    case Some("already-exists") => AlreadyExists
    case Some("in-use") => InUse
    case Some("duplicate-key") => DuplicateKey
    case _ => Conflict
  }

  /**
   `FailOnConflict`: passes unless the status is 409; on 409 it always
   throws, with no detail. A body that does not parse gives `Conflict`; a
   `null` body fails on `conflict.Code`.
   */
  function FailOnConflict(status: int, body: Body, parser: Parser<ConflictBody>): (r: Option<Thrown>)
    ensures r.Some? <==> status == 409
    ensures r.Some? && parser(body).Malformed? ==> r == Raised(Conflict)
    ensures r.Some? && parser(body).NullValue? ==> r == Some(NullReference)
    ensures r.Some? && parser(body).Value? ==> r == Raised(ConflictCode(parser(body).value.code))
  {
    if status == 409 then
      match DeserializeOr(parser, body, Conflict)
      case Raise(t) => Some(t)
      case Return(None) => Some(NullReference)
      case Return(Some(conflict)) => Raised(ConflictCode(conflict.code))
    else
      None
  }

  /** `FailOnOtherErrors`: above 500 is `ServerError`, 401 to 500 `ClientError`, the rest passes. */
  function FailOnOtherErrors(status: int): (r: Option<Thrown>)
    ensures r.Some? <==> status > 400
    ensures r.Some? ==> r == Raised(if status > 500 then ServerError else ClientError)
  {
    if status > 500 then Raised(ServerError)
    else if status > 400 then Raised(ClientError)
    else None
  }

  datatype Check = AccessCheck | ConflictCheck | BadRequestCheck | FormatCheck | ServerCheck | OtherCheck

  function RunCheck(check: Check, status: int, body: Body, codec: Codec): (r: Option<Thrown>)
    ensures r.Some? ==> status >= 400
  {
    match check
    case AccessCheck => FailOnAccess(status)
    case ConflictCheck => FailOnConflict(status, body, codec.conflict)
    case BadRequestCheck => FailOnBadRequest(status, body, codec.badRequest)
    case FormatCheck => FailOnFormatError(status)
    case ServerCheck => FailOnServerError(status)
    case OtherCheck => FailOnOtherErrors(status)
  }

  /** The sequence `List` and `One` run. */
  const ReadChecks: seq<Check> := [AccessCheck, FormatCheck, ServerCheck, OtherCheck]

  /** The sequence `Create`, `Update`, `Replace`, `Delete`, `View` and `Operation` run. */
  const WriteChecks: seq<Check> := [AccessCheck, ConflictCheck, BadRequestCheck, FormatCheck, ServerCheck, OtherCheck]

  /**
   Runs the checks in order and reports what the first throwing check
   throws, or `None` when all pass.
   */
  function Classify(checks: seq<Check>, status: int, body: Body, codec: Codec): (r: Option<Thrown>)
    ensures |checks| == 0 ==> r.None?
    ensures r.Some? ==> status >= 400
    decreases |checks|
  {
    if |checks| == 0 then None
    else if RunCheck(checks[0], status, body, codec).Some? then RunCheck(checks[0], status, body, codec)
    else Classify(checks[1..], status, body, codec)
  }

  /**
   First match wins: the classification passes exactly when every check
   passes, and otherwise equals the outcome of a check that throws while
   all checks before it pass.
   */
  lemma {:induction false} ClassifyFirstMatch(checks: seq<Check>, status: int, body: Body, codec: Codec)
    ensures var r := Classify(checks, status, body, codec);
      && (r.None? <==> forall i :: 0 <= i < |checks| ==> RunCheck(checks[i], status, body, codec).None?)
      && (r.Some? ==>
            exists i :: 0 <= i < |checks| && RunCheck(checks[i], status, body, codec) == r &&
                        forall j :: 0 <= j < i ==> RunCheck(checks[j], status, body, codec).None?)
    decreases |checks|
  {
    if |checks| > 0 && RunCheck(checks[0], status, body, codec).None? {
      var rest := checks[1..];
      ClassifyFirstMatch(rest, status, body, codec);
      assert forall i :: 1 <= i < |checks| ==> checks[i] == rest[i - 1];
      var r := Classify(rest, status, body, codec);
      if r.Some? {
        var k :| 0 <= k < |rest| && RunCheck(rest[k], status, body, codec) == r &&
                 forall j :: 0 <= j < k ==> RunCheck(rest[j], status, body, codec).None?;
        assert RunCheck(checks[k + 1], status, body, codec) == r;
      }
    }
  }

  /** Classification of a status that is in none of the specific checks. */
  function OtherOutcome(status: int): Option<Thrown> {
    if status > 500 then Raised(ServerError)
    else if status > 400 then Raised(ClientError)
    else None
  }

  /** Classification of a 400 by its parsed body. */
  function BadRequestOutcome(parsed: Parse<BadRequestBody>): Option<Thrown> {
    match parsed
    case Malformed => Raised(FormatError)
    case NullValue => Some(NullReference)
    case Value(br) => Some(EngineError(BadRequestError(br)))
  }

  /** Classification of a 409 by its parsed body. */
  function ConflictOutcome(parsed: Parse<ConflictBody>): Option<Thrown> {
    match parsed
    case Malformed => Raised(Conflict)
    case NullValue => Some(NullReference)
    case Value(c) => Raised(ConflictCode(c.code))
  }

  /**
   Reference table for the write operations, keyed on the status rather
   than ordered by check.
   */
  function WriteTable(status: int, body: Body, codec: Codec): Option<Thrown> {
    if status in StatusTable then Raised(StatusTable[status])
    else if status == 400 then BadRequestOutcome(codec.badRequest(body))
    else if status == 409 then ConflictOutcome(codec.conflict(body))
    else OtherOutcome(status)
  }

  /** Reference table for `List` and `One`: 400 and 409 get no special treatment. */
  function ReadTable(status: int): Option<Thrown> {
    if status in StatusTable then Raised(StatusTable[status]) else OtherOutcome(status)
  }

  /** Running the six checks in order is the status-keyed table. */
  lemma WriteChecksMatchTable(status: int, body: Body, codec: Codec)
    ensures Classify(WriteChecks, status, body, codec) == WriteTable(status, body, codec)
  {
    var tail := [FormatCheck, ServerCheck, OtherCheck];
    assert tail[1..] == [ServerCheck, OtherCheck] && tail[1..][1..] == [OtherCheck];
    var t := Classify(tail, status, body, codec);
    assert t == if status in FormatStatuses then Raised(FormatError)
                else if status in ServerStatuses then Raised(StatusTable[status])
                else OtherOutcome(status);
    var w := WriteChecks;
    assert w[1..] == [ConflictCheck, BadRequestCheck] + tail;
    assert w[1..][1..] == [BadRequestCheck] + tail;
    assert w[1..][1..][1..] == tail;
    var b := Classify(w[1..][1..], status, body, codec);
    assert b == if status == 400 then BadRequestOutcome(codec.badRequest(body)) else t;
    var c := Classify(w[1..], status, body, codec);
    assert c == if status == 409 then ConflictOutcome(codec.conflict(body)) else b;
    assert Classify(w, status, body, codec) == if status in AccessStatuses then Raised(StatusTable[status]) else c;
    TableKeys(status);
    if status in AccessStatuses || status in FormatStatuses || status in ServerStatuses {
      assert WriteTable(status, body, codec) == Raised(StatusTable[status]);
    } else if status == 400 {
      assert WriteTable(status, body, codec) == BadRequestOutcome(codec.badRequest(body));
    } else if status == 409 {
      assert WriteTable(status, body, codec) == ConflictOutcome(codec.conflict(body));
    } else {
      assert WriteTable(status, body, codec) == OtherOutcome(status);
    }
  }

  /** The table's keys are exactly the statuses of the three status-only checks. */
  lemma TableKeys(status: int)
    ensures status in StatusTable <==>
      status in AccessStatuses || status in FormatStatuses || status in ServerStatuses
  {
  }

  /** Running the four read checks in order is the read table. */
  lemma ReadChecksMatchTable(status: int, body: Body, codec: Codec)
    ensures Classify(ReadChecks, status, body, codec) == ReadTable(status)
  {
    var rc := ReadChecks;
    assert rc[1..] == [FormatCheck, ServerCheck, OtherCheck];
    assert rc[1..][1..] == [ServerCheck, OtherCheck];
    assert rc[1..][1..][1..] == [OtherCheck];
  }

  /** For the write operations, exactly the statuses of 400 and above throw. */
  lemma WriteChecksCoverErrors(status: int, body: Body, codec: Codec)
    ensures Classify(WriteChecks, status, body, codec).Some? <==> status >= 400
  {
    WriteChecksMatchTable(status, body, codec);
  }

  /** For `List` and `One`, exactly the statuses above 400 throw: a 400 passes. */
  lemma ReadChecksCoverErrors(status: int, body: Body, codec: Codec)
    ensures Classify(ReadChecks, status, body, codec).Some? <==> status > 400
  {
    ReadChecksMatchTable(status, body, codec);
  }

  /**
   The two sequences agree on every status but 400 and 409: there a read
   passes a 400 and reports a 409 as a generic `ClientError`.
   */
  lemma ReadWriteDiffer(status: int, body: Body, codec: Codec)
    ensures status != 400 && status != 409 ==>
      Classify(ReadChecks, status, body, codec) == Classify(WriteChecks, status, body, codec)
    ensures status == 400 ==> Classify(ReadChecks, status, body, codec).None?
    ensures status == 409 ==> Classify(ReadChecks, status, body, codec) == Raised(ClientError)
    ensures status == 409 ==> Classify(WriteChecks, status, body, codec) != Raised(ClientError)
  {
    ReadChecksMatchTable(status, body, codec);
    WriteChecksMatchTable(status, body, codec);
  }

  /** The specific (non catch-all) checks. */
  predicate Specific(check: Check) {
    check != OtherCheck
  }

  /**
   No status makes two different specific checks throw, so their relative
   order does not matter; only the catch-all must come last.
   */
  lemma SpecificChecksDisjoint(c1: Check, c2: Check, status: int, body: Body, codec: Codec)
    requires Specific(c1) && Specific(c2) && c1 != c2
    ensures RunCheck(c1, status, body, codec).None? || RunCheck(c2, status, body, codec).None?
  {
  }

  /**
   Whatever the status and body, the classifier never throws a success
   code, and what it throws carries at most one kind of detail.
   */
  lemma ClassifyNeverSucceeds(checks: seq<Check>, status: int, body: Body, codec: Codec)
    ensures var r := Classify(checks, status, body, codec);
      r.Some? && r.value.EngineError? ==> !IsSuccess(r.value.error.code) && r.value.error.Exclusive()
  {
    var r := Classify(checks, status, body, codec);
    ClassifyFirstMatch(checks, status, body, codec);
    if r.Some? && r.value.EngineError? {
      var i :| 0 <= i < |checks| && RunCheck(checks[i], status, body, codec) == r;
    }
  }

  /** Among the write checks, only a 400 or 409 answer has its body looked at. */
  lemma BodyMattersOnlyFor400And409(status: int, b1: Body, b2: Body, codec: Codec)
    requires status != 400 && status != 409
    ensures Classify(WriteChecks, status, b1, codec) == Classify(WriteChecks, status, b2, codec)
  {
    WriteChecksMatchTable(status, b1, codec);
    WriteChecksMatchTable(status, b2, codec);
  }
}

=== FILE: facade_properties.dfy ===
/**
 What a caller of the facades sees for a given HTTP answer: the Result
 code as a function of the status, the exceptions that can still escape,
 and the success codes the facades never use.
 */
module FacadeProperties {
  import opened Wrappers
  import opened ResultCodes
  import opened Results
  import opened Http
  import opened EngineCommon
  import opened Wire
  import opened EngineErrors
  import opened Cursors
  import opened Text
  import opened Resources
  import Engine
  import ListResource
  import SimpleResource

  /** The code a read answer with an error status turns into. */
  function ReadCode(status: int): (code: ResultCode)
    requires status > 400
    ensures !IsSuccess(code)
  {
    ReadTable(status).value.error.code
  }

  /**
   `Read(id)` on a completed answer: up to and including 400 the body is
   the element (or a `FormatError` when it does not parse); above 400 the
   Result carries the read table's code and nothing else.
   */
  lemma ReadByStatus<E>(res: Resource, id: string, status: int, body: Body, codec: Codec, parser: Parser<E>)
    ensures var r := ListResource.Read(res, id, Completed(status, body), codec, parser).outcome.value;
      && (status <= 400 && !parser(body).Malformed? ==> r == ElementResult(Parsed(parser(body))))
      && (status <= 400 && parser(body).Malformed? ==> r.code == FormatError && r.NoPayload())
      && (status > 400 ==> r.code == ReadCode(status) && r.NoPayload() && r.NoErrorDetail())
  {
    Engine.PassingStatuses(Engine.OneOp, status, body, codec);
    ReadChecksMatchTable(status, body, codec);
  }

  /**
   `Update(id, changes)` on a completed answer, once the changes
   serialised: below 400 a bare `Ok`; from 400 on, whatever the write
   table throws, surfaced.
   */
  lemma UpdateByStatus<E>(res: Resource, id: string, changes: Option<JObject>, serializer: Serializer<JObject>,
                          status: int, body: Body, codec: Codec)
    requires changes.None? || serializer(changes.value).Some?
    ensures var x := ListResource.Update<E>(res, id, changes, serializer, Completed(status, body), codec);
      && x.sent.Some?
      && (status < 400 ==> x.outcome == Return(OkResult()))
      && (status >= 400 ==> WriteTable(status, body, codec).Some? && Surfaced(WriteTable(status, body, codec).value, x.outcome))
  {
    Engine.PassingStatuses(Engine.UpdateOp, status, body, codec);
    WriteChecksMatchTable(status, body, codec);
  }

  /**
   The same conflict answer means different things to a read and to a
   write: a 409 read is a plain `ClientError`, a 409 write one of the
   conflict codes (or an escaping `null` dereference).
   */
  lemma ConflictMeansDifferentThings<E>(res: Resource, id: string, body: Body, codec: Codec, parser: Parser<E>)
    ensures ListResource.Read(res, id, Completed(409, body), codec, parser).outcome.value.code == ClientError
    ensures var x := ListResource.Delete<E>(res, id, Completed(409, body), codec);
      (x.outcome.Return? ==> x.outcome.value.code in {AlreadyExists, InUse, DuplicateKey, Conflict}) &&
      (x.outcome.Raise? <==> codec.conflict(body).NullValue?)
  {
    ReadByStatus(res, id, 409, body, codec, parser);
    Engine.PassingStatuses(Engine.DeleteOp, 409, body, codec);
    WriteChecksMatchTable(409, body, codec);
  }

  /**
   A connection error is reported as `Unreachable` by the calls that always
   send: `List`, `Read` and `Delete` of the list resource and `Read` of the
   simple resource. The calls that send only a serialisable body are below.
   */
  lemma ConnectionErrorReportsUnreachable<E>(res: Resource, id: string, cursor: Cursor, codec: Codec,
                                             parser: Parser<E>, pageParser: Parser<seq<E>>)
    ensures ListResource.List(res, cursor, ConnectionError, codec, pageParser).outcome.value.code == Unreachable
    ensures ListResource.Read(res, id, ConnectionError, codec, parser).outcome.value.code == Unreachable
    ensures ListResource.Delete<E>(res, id, ConnectionError, codec).outcome.value.code == Unreachable
    ensures SimpleResource.Read(res, ConnectionError, codec, parser).outcome.value.code == Unreachable
  {
    Engine.ConnectionErrorIsUnreachable(Engine.ListOp, codec);
    Engine.ConnectionErrorIsUnreachable(Engine.OneOp, codec);
    Engine.ConnectionErrorIsUnreachable(Engine.DeleteOp, codec);
  }

  /**
   The writes and the method calls report a connection error as
   `Unreachable` whenever their request was sent.
   */
  lemma SentCallsReportUnreachable<E>(res: Resource, id: string, methodName: string, body: Option<E>,
                                      serializer: Serializer<E>, changes: Option<JObject>,
                                      patchSerializer: Serializer<JObject>, args: Option<seq<(string, string)>>,
                                      urlEncode: string -> string, codec: Codec,
                                      readDocument: Body -> Attempt<JObject>)
    ensures var x := ListResource.Create(res, body, serializer, ConnectionError, codec);
      x.sent.Some? ==> x.outcome.Return? && x.outcome.value.code == Unreachable
    ensures var x := ListResource.Update<E>(res, id, changes, patchSerializer, ConnectionError, codec);
      x.sent.Some? ==> x.outcome.Return? && x.outcome.value.code == Unreachable
    ensures var x := ListResource.Replace(res, id, body, serializer, ConnectionError, codec);
      x.sent.Some? ==> x.outcome.Return? && x.outcome.value.code == Unreachable
    ensures var x := ListResource.View(res, methodName, args, urlEncode, ConnectionError, codec, readDocument);
      x.outcome.Return? && x.outcome.value.code == Unreachable
    ensures var x := ListResource.Operation(res, methodName, args, urlEncode, body, serializer,
                                            ConnectionError, codec, readDocument);
      x.sent.Some? ==> x.outcome.Return? && x.outcome.value.code == Unreachable
    ensures var x := ListResource.ItemView(res, id, methodName, args, urlEncode, ConnectionError, codec, readDocument);
      x.outcome.Return? && x.outcome.value.code == Unreachable
    ensures var x := SimpleResource.Create(res, body, serializer, ConnectionError, codec);
      x.sent.Some? ==> x.outcome.Return? && x.outcome.value.code == Unreachable
    ensures var x := SimpleResource.Delete<E>(res, ConnectionError, codec);
      x.outcome.Return? && x.outcome.value.code == Unreachable
    ensures var x := SimpleResource.Update<E>(res, changes, patchSerializer, ConnectionError, codec);
      x.sent.Some? ==> x.outcome.Return? && x.outcome.value.code == Unreachable
    ensures var x := SimpleResource.Replace(res, body, serializer, ConnectionError, codec);
      x.sent.Some? ==> x.outcome.Return? && x.outcome.value.code == Unreachable
    ensures var x := ListResource.OperationWithoutBody(res, methodName, args, urlEncode, ConnectionError, codec,
                                                       readDocument);
      x.outcome.Return? && x.outcome.value.code == Unreachable
  {
    Engine.ConnectionErrorIsUnreachable(Engine.CreateOp, codec);
    Engine.ConnectionErrorIsUnreachable(Engine.UpdateOp, codec);
    Engine.ConnectionErrorIsUnreachable(Engine.ReplaceOp, codec);
    Engine.ConnectionErrorIsUnreachable(Engine.ViewOp, codec);
    Engine.ConnectionErrorIsUnreachable(Engine.OperationOp, codec);
    Engine.ConnectionErrorIsUnreachable(Engine.DeleteOp, codec);
  }

  /** Every exception the checks throw is the engine's, or a `null` dereference of a 400 or 409 body. */
  lemma ChecksThrow(op: Engine.Op, response: Response, codec: Codec)
    ensures var r := Engine.Receive(op, response, codec);
      r.Raise? && !r.thrown.EngineError? ==>
        && r.thrown == NullReference && response.Completed?
        && ((response.status == 400 && codec.badRequest(response.body).NullValue?) ||
            (response.status == 409 && codec.conflict(response.body).NullValue?))
  {
    if response.Completed? {
      WriteChecksMatchTable(response.status, response.body, codec);
      ReadChecksMatchTable(response.status, response.body, codec);
    }
  }

  /**
   The only exception that escapes a write call is the `null` dereference
   of a 400 or 409 body; `Delete` and `Update` are shown, the other writes
   surface exceptions through the same `Wrap`.
   */
  lemma OnlyNullBodiesEscape<E>(res: Resource, id: string, changes: Option<JObject>,
                                serializer: Serializer<JObject>, response: Response, codec: Codec)
    ensures var x := ListResource.Delete<E>(res, id, response, codec);
      x.outcome.Raise? ==>
        x.outcome.thrown == NullReference && response.Completed? && response.status in {400, 409}
    ensures var x := ListResource.Update<E>(res, id, changes, serializer, response, codec);
      x.outcome.Raise? ==>
        x.outcome.thrown == NullReference && response.Completed? && response.status in {400, 409}
  {
    ChecksThrow(Engine.DeleteOp, response, codec);
    ChecksThrow(Engine.UpdateOp, response, codec);
  }

  /** A write whose request was sent answers `Ok` on success and an error code otherwise. */
  lemma WriteCode<E>(op: Engine.Op, x: Engine.Exchange<Result<E>>, response: Response, codec: Codec)
    requires x.sent.Some? && Engine.Passes(op, response, codec) ==> x.outcome == Return(OkResult())
    requires x.sent.Some? && !Engine.Passes(op, response, codec) ==>
      Surfaced(Engine.Receive(op, response, codec).thrown, x.outcome)
    requires x.sent.None? ==> x.outcome.Return? && Reports(x.outcome.value, Plain(FormatError))
    ensures x.outcome.Return? ==> x.outcome.value.code == Ok || !IsSuccess(x.outcome.value.code)
  {
    if x.sent.Some? && !Engine.Passes(op, response, codec) {
      var t := Engine.Receive(op, response, codec).thrown;
      assert t.EngineError? ==> !IsSuccess(t.error.code);
    }
  }

  /** `Ok` and the failure codes are none of the dedicated write success codes. */
  lemma NotAWriteSuccessCode(code: ResultCode)
    requires code == Ok || !IsSuccess(code)
    ensures code !in {Updated, Replaced, Deleted}
  {
  }

  /**
   The writes that return nothing answer a bare `Ok` on success and never
   use the `Updated`, `Replaced` or `Deleted` codes; `Update` here,
   `Replace` and `Delete` below.
   */
  lemma UpdateAnswersOk<E>(res: Resource, id: string, changes: Option<JObject>,
                           serializer: Serializer<JObject>, response: Response, codec: Codec)
    ensures var x := ListResource.Update<E>(res, id, changes, serializer, response, codec);
      x.outcome.Return? ==> x.outcome.value.code !in {Updated, Replaced, Deleted}
  {
    var x := ListResource.Update<E>(res, id, changes, serializer, response, codec);
    WriteCode(Engine.UpdateOp, x, response, codec);
    if x.outcome.Return? {
      NotAWriteSuccessCode(x.outcome.value.code);
    }
  }

  lemma ReplaceAnswersOk<E>(res: Resource, id: string, replacement: Option<E>, serializer: Serializer<E>,
                            response: Response, codec: Codec)
    ensures var x := ListResource.Replace(res, id, replacement, serializer, response, codec);
      x.outcome.Return? ==> x.outcome.value.code !in {Updated, Replaced, Deleted}
  {
    var x := ListResource.Replace(res, id, replacement, serializer, response, codec);
    WriteCode(Engine.ReplaceOp, x, response, codec);
    if x.outcome.Return? {
      NotAWriteSuccessCode(x.outcome.value.code);
    }
  }

  lemma DeleteAnswersOk<E>(res: Resource, id: string, response: Response, codec: Codec)
    ensures var x := ListResource.Delete<E>(res, id, response, codec);
      x.outcome.Return? ==> x.outcome.value.code !in {Updated, Replaced, Deleted}
  {
    var x := ListResource.Delete<E>(res, id, response, codec);
    WriteCode(Engine.DeleteOp, x, response, codec);
    if x.outcome.Return? {
      NotAWriteSuccessCode(x.outcome.value.code);
    }
  }

  /** A page request carries the cursor in a query string that reads back to the same cursor. */
  lemma ListSendsCursor<E>(res: Resource, cursor: Cursor, response: Response, codec: Codec,
                           parser: Parser<seq<E>>)
    ensures var url := ListResource.List(res, cursor, response, codec, parser).sent.value.url;
      ParseQueryString(Split(url, '?')[1]) == Some(cursor)
  {
    QueryStringRoundTrip(cursor);
  }

  /**
   A created element whose answer does not parse is still reported as
   created, with an empty id.
   */
  lemma CreateIsLenient<E>(res: Resource, body: Option<E>, serializer: Serializer<E>,
                           status: int, answer: Body, codec: Codec)
    requires body.None? || serializer(body.value).Some?
    requires status < 400 && codec.created(answer).Malformed?
    ensures SimpleResource.Create(res, body, serializer, Completed(status, answer), codec).outcome ==
      Return(CreatedResult(Some("")))
  {
    Engine.PassingStatuses(Engine.CreateOp, status, answer, codec);
  }
}

=== FILE: http.dfy ===
/**
 The HTTP exchange as the engine sees it: the request it configures and
 the answer the transport gives back. Sending itself is not modelled; the
 answer is an input.
 */
module Http {
  import opened Wrappers
  import Text

  type Body = seq<bv8>

  /** An authorization header: scheme and token value. */
  datatype Authorization = Authorization(scheme: string, value: string)

  datatype Verb = GET | POST | PATCH | PUT | DELETE

  datatype Header = Header(name: string, value: string)

  /** A configured request: URL, verb, headers in the order they are set, upload body. */
  datatype Request = Request(url: string, verb: Verb, headers: seq<Header>, body: Option<Body>)

  /**
   What the transport reports: a connection-level failure, or a completed
   exchange with its status code and downloaded bytes.
   */
  datatype Response = ConnectionError | Completed(status: int, body: Body)

  /** The `Authorization: "<Scheme> <Value>"` header sent with every request. */
  function AuthorizationHeader(auth: Authorization): (h: Header)
    ensures h.name == "Authorization"
    ensures |h.value| == |auth.scheme| + 1 + |auth.value|
  {
    Header("Authorization", auth.scheme + " " + auth.value)
  }

  /**
   When the scheme has no space, the header value splits at its first space
   back into the scheme and the token value.
   */
  lemma AuthorizationHeaderRoundTrip(auth: Authorization)
    requires ' ' !in auth.scheme
    ensures Text.Split(AuthorizationHeader(auth).value, ' ')[0] == auth.scheme
    ensures AuthorizationHeader(auth).value[|auth.scheme| + 1..] == auth.value
  {
    Text.SplitAtSeparator(auth.scheme, auth.value, ' ');
    Text.SplitWithoutSeparator(auth.scheme, ' ');
    assert auth.scheme + " " + auth.value == auth.scheme + [' '] + auth.value;
  }

  const JsonContentType: Header := Header("Content-Type", "application/json")
}

=== FILE: list_resource.dfy ===
/**
 The list resource facade: every call targets `{Base}/{Name}` or one of its
 sub-paths, runs the engine operation inside `WrapException`, and builds
 the success Result from the engine's value.
 */
module ListResource {
  import opened Wrappers
  import opened ResultCodes
  import opened Results
  import opened Http
  import opened EngineCommon
  import opened Wire
  import opened Cursors
  import opened Text
  import opened Resources
  import Engine

  /** `List(cursor)`: one page of the collection, in `Elements`. */
  function List<LE(==)>(res: Resource, cursor: Cursor, response: Response, codec: Codec,
                        parser: Parser<seq<LE>>): (x: Engine.Exchange<Result<LE>>)
    ensures x.sent.Some? && x.sent.value.verb == GET
    ensures Split(x.sent.value.url, '?') == [StripQuery(CollectionPath(res)), QueryString(cursor)]
    ensures x.outcome.Return?
    ensures Engine.Passes(Engine.ListOp, response, codec) && !parser(response.body).Malformed? ==>
      x.outcome.value == PageResult(Parsed(parser(response.body)))
    ensures Engine.Passes(Engine.ListOp, response, codec) && parser(response.body).Malformed? ==>
      Reports(x.outcome.value, Plain(FormatError))
    ensures !Engine.Passes(Engine.ListOp, response, codec) ==>
      Surfaced(Engine.Receive(Engine.ListOp, response, codec).thrown, x.outcome)
  {
    var e := Engine.List(CollectionPath(res), res.authorization, cursor, response, codec, parser);
    Engine.Exchange(e.sent, Wrap(e.outcome, PageResult))
  }

  /** `Create(body)`: POST to the collection; the Result carries the new id. */
  function Create<E(==)>(res: Resource, body: Option<E>, serializer: Serializer<E>,
                         response: Response, codec: Codec): (x: Engine.Exchange<Result<E>>)
    ensures x.sent.None? <==> body.Some? && serializer(body.value).None?
    ensures x.sent.None? ==> x.outcome.Return? && Reports(x.outcome.value, Plain(FormatError))
    ensures x.sent.Some? ==> x.sent.value.url == StripQuery(CollectionPath(res)) && x.sent.value.verb == POST
    ensures x.sent.Some? && Engine.Passes(Engine.CreateOp, response, codec) ==>
      match codec.created(response.body)
      case Malformed => x.outcome == Return(CreatedResult(Some("")))
      case NullValue => x.outcome == Raise(NullReference)
      case Value(created) => x.outcome == Return(CreatedResult(created.id))
    ensures x.sent.Some? && !Engine.Passes(Engine.CreateOp, response, codec) ==>
      Surfaced(Engine.Receive(Engine.CreateOp, response, codec).thrown, x.outcome)
  {
    var e := Engine.Create(CollectionPath(res), res.authorization, body, serializer, response, codec);
    Engine.Exchange(e.sent, Wrap(e.outcome, CreatedResult))
  }

  /** `Read(id)`: GET one element, in `Element`. */
  function Read<E(==)>(res: Resource, id: string, response: Response, codec: Codec,
                       parser: Parser<E>): (x: Engine.Exchange<Result<E>>)
    ensures x.sent.Some? && x.sent.value.url == StripQuery(ItemPath(res, id)) && x.sent.value.verb == GET
    ensures x.outcome.Return?
    ensures Engine.Passes(Engine.OneOp, response, codec) && !parser(response.body).Malformed? ==>
      x.outcome.value == ElementResult(Parsed(parser(response.body)))
    ensures Engine.Passes(Engine.OneOp, response, codec) && parser(response.body).Malformed? ==>
      Reports(x.outcome.value, Plain(FormatError))
    ensures !Engine.Passes(Engine.OneOp, response, codec) ==>
      Surfaced(Engine.Receive(Engine.OneOp, response, codec).thrown, x.outcome)
  {
    var e := Engine.One(ItemPath(res, id), res.authorization, response, codec, parser);
    Engine.Exchange(e.sent, Wrap(e.outcome, ElementResult))
  }

  /** `Update(id, changes)`: PATCH one element; a bare `Ok` on success. */
  function Update<E(==)>(res: Resource, id: string, changes: Option<JObject>, serializer: Serializer<JObject>,
                         response: Response, codec: Codec): (x: Engine.Exchange<Result<E>>)
    ensures x.sent.None? <==> changes.Some? && serializer(changes.value).None?
    ensures x.sent.None? ==> x.outcome.Return? && Reports(x.outcome.value, Plain(FormatError))
    ensures x.sent.Some? ==> x.sent.value.url == StripQuery(ItemPath(res, id)) && x.sent.value.verb == PATCH
    ensures x.sent.Some? && Engine.Passes(Engine.UpdateOp, response, codec) ==> x.outcome == Return(OkResult())
    ensures x.sent.Some? && !Engine.Passes(Engine.UpdateOp, response, codec) ==>
      Surfaced(Engine.Receive(Engine.UpdateOp, response, codec).thrown, x.outcome)
  {
    var e := Engine.Update(ItemPath(res, id), res.authorization, changes, serializer, response, codec);
    Engine.Exchange(e.sent, Wrap(e.outcome, DoneResult))
  }

  /** `Replace(id, replacement)`: PUT one element; a bare `Ok` on success. */
  function Replace<E(==)>(res: Resource, id: string, replacement: Option<E>, serializer: Serializer<E>,
                          response: Response, codec: Codec): (x: Engine.Exchange<Result<E>>)
    ensures x.sent.None? <==> replacement.Some? && serializer(replacement.value).None?
    ensures x.sent.None? ==> x.outcome.Return? && Reports(x.outcome.value, Plain(FormatError))
    ensures x.sent.Some? ==> x.sent.value.url == StripQuery(ItemPath(res, id)) && x.sent.value.verb == PUT
    ensures x.sent.Some? && Engine.Passes(Engine.ReplaceOp, response, codec) ==> x.outcome == Return(OkResult())
    ensures x.sent.Some? && !Engine.Passes(Engine.ReplaceOp, response, codec) ==>
      Surfaced(Engine.Receive(Engine.ReplaceOp, response, codec).thrown, x.outcome)
  {
    var e := Engine.Replace(ItemPath(res, id), res.authorization, replacement, serializer, response, codec);
    Engine.Exchange(e.sent, Wrap(e.outcome, DoneResult))
  }

  /** `Delete(id)`: DELETE one element; a bare `Ok` on success. */
  function Delete<E(==)>(res: Resource, id: string, response: Response, codec: Codec): (x: Engine.Exchange<Result<E>>)
    ensures x.sent.Some? && x.sent.value.url == StripQuery(ItemPath(res, id)) && x.sent.value.verb == DELETE
    ensures Engine.Passes(Engine.DeleteOp, response, codec) ==> x.outcome == Return(OkResult())
    ensures !Engine.Passes(Engine.DeleteOp, response, codec) ==>
      Surfaced(Engine.Receive(Engine.DeleteOp, response, codec).thrown, x.outcome)
  {
    var e := Engine.Delete(ItemPath(res, id), res.authorization, response, codec);
    Engine.Exchange(e.sent, Wrap(e.outcome, DoneResult))
  }

  /** The success Result of the named calls: the answer document in `Element`. */
  function Document(doc: JObject): Result<JObject> {
    ElementResult(Some(doc))
  }

  /** `View(method, args)`: GET `~method` with the arguments as the query. */
  function View(res: Resource, methodName: string, args: Option<seq<(string, string)>>,
                urlEncode: string -> string, response: Response, codec: Codec,
                readDocument: Body -> Attempt<JObject>): (x: Engine.Exchange<Result<JObject>>)
    ensures x.sent.Some? && x.sent.value.verb == GET
    ensures x.sent.value.url == Engine.ArgsUrl(MethodPath(res, methodName), args, urlEncode)
    ensures Engine.Passes(Engine.ViewOp, response, codec) && readDocument(response.body).Done? ==>
      x.outcome == Return(ElementResult(Some(readDocument(response.body).value)))
    ensures Engine.Passes(Engine.ViewOp, response, codec) && readDocument(response.body).Failed? ==>
      x.outcome.Return? && Reports(x.outcome.value, readDocument(response.body).error)
    ensures !Engine.Passes(Engine.ViewOp, response, codec) ==>
      Surfaced(Engine.Receive(Engine.ViewOp, response, codec).thrown, x.outcome)
  {
    var e := Engine.View(MethodPath(res, methodName), res.authorization, args, urlEncode, response, codec, readDocument);
    Engine.Exchange(e.sent, Wrap(e.outcome, Document))
  }

  /** `Operation(method, args, body)`: POST `~method` with the arguments and the body. */
  function Operation<B>(res: Resource, methodName: string, args: Option<seq<(string, string)>>,
                        urlEncode: string -> string, body: Option<B>, serializer: Serializer<B>,
                        response: Response, codec: Codec,
                        readDocument: Body -> Attempt<JObject>): (x: Engine.Exchange<Result<JObject>>)
    ensures x.sent.None? <==> body.Some? && serializer(body.value).None?
    ensures x.sent.None? ==> x.outcome.Return? && Reports(x.outcome.value, Plain(FormatError))
    ensures x.sent.Some? ==>
      x.sent.value.verb == POST && x.sent.value.url == Engine.ArgsUrl(MethodPath(res, methodName), args, urlEncode)
    ensures x.sent.Some? ==> x.sent.value.body == Engine.AttachBody(body, serializer).value
    ensures x.sent.Some? && Engine.Passes(Engine.OperationOp, response, codec) && readDocument(response.body).Done? ==>
      x.outcome == Return(ElementResult(Some(readDocument(response.body).value)))
    ensures x.sent.Some? && Engine.Passes(Engine.OperationOp, response, codec) && readDocument(response.body).Failed? ==>
      x.outcome.Return? && Reports(x.outcome.value, readDocument(response.body).error)
    ensures x.sent.Some? && !Engine.Passes(Engine.OperationOp, response, codec) ==>
      Surfaced(Engine.Receive(Engine.OperationOp, response, codec).thrown, x.outcome)
  {
    var e := Engine.Operation(MethodPath(res, methodName), res.authorization, args, urlEncode, body, serializer,
      response, codec, readDocument);
    Engine.Exchange(e.sent, Wrap(e.outcome, Document))
  }

  /** `Operation(method, args)`: POST `~method` with the arguments and no body. */
  function OperationWithoutBody(res: Resource, methodName: string, args: Option<seq<(string, string)>>,
                                urlEncode: string -> string, response: Response, codec: Codec,
                                readDocument: Body -> Attempt<JObject>): (x: Engine.Exchange<Result<JObject>>)
    ensures x.sent.Some? && x.sent.value.verb == POST && x.sent.value.body.None?
    ensures x.sent.value.url == Engine.ArgsUrl(MethodPath(res, methodName), args, urlEncode)
    ensures Engine.Passes(Engine.OperationOp, response, codec) && readDocument(response.body).Done? ==>
      x.outcome == Return(ElementResult(Some(readDocument(response.body).value)))
    ensures Engine.Passes(Engine.OperationOp, response, codec) && readDocument(response.body).Failed? ==>
      x.outcome.Return? && Reports(x.outcome.value, readDocument(response.body).error)
    ensures !Engine.Passes(Engine.OperationOp, response, codec) ==>
      Surfaced(Engine.Receive(Engine.OperationOp, response, codec).thrown, x.outcome)
  {
    var e := Engine.OperationWithoutBody(MethodPath(res, methodName), res.authorization, args, urlEncode,
      response, codec, readDocument);
    Engine.Exchange(e.sent, Wrap(e.outcome, Document))
  }

  /** `ItemView(id, method, args)`: GET `{id}/~method` with the arguments as the query. */
  function ItemView(res: Resource, id: string, methodName: string, args: Option<seq<(string, string)>>,
                    urlEncode: string -> string, response: Response, codec: Codec,
                    readDocument: Body -> Attempt<JObject>): (x: Engine.Exchange<Result<JObject>>)
    ensures x.sent.Some? && x.sent.value.verb == GET
    ensures x.sent.value.url == Engine.ArgsUrl(ItemMethodPath(res, id, methodName), args, urlEncode)
    ensures Engine.Passes(Engine.ViewOp, response, codec) && readDocument(response.body).Done? ==>
      x.outcome == Return(ElementResult(Some(readDocument(response.body).value)))
    ensures Engine.Passes(Engine.ViewOp, response, codec) && readDocument(response.body).Failed? ==>
      x.outcome.Return? && Reports(x.outcome.value, readDocument(response.body).error)
    ensures !Engine.Passes(Engine.ViewOp, response, codec) ==>
      Surfaced(Engine.Receive(Engine.ViewOp, response, codec).thrown, x.outcome)
  {
    var e := Engine.View(ItemMethodPath(res, id, methodName), res.authorization, args, urlEncode,
      response, codec, readDocument);
    Engine.Exchange(e.sent, Wrap(e.outcome, Document))
  }

  /** `ItemOperation(id, method, args, body)`: POST `{id}/~method` with the arguments and the body. */
  function ItemOperation<B>(res: Resource, id: string, methodName: string, args: Option<seq<(string, string)>>,
                            urlEncode: string -> string, body: Option<B>, serializer: Serializer<B>,
                            response: Response, codec: Codec,
                            readDocument: Body -> Attempt<JObject>): (x: Engine.Exchange<Result<JObject>>)
    ensures x.sent.None? <==> body.Some? && serializer(body.value).None?
    ensures x.sent.None? ==> x.outcome.Return? && Reports(x.outcome.value, Plain(FormatError))
    ensures x.sent.Some? ==> x.sent.value.verb == POST
    ensures x.sent.Some? ==> x.sent.value.url == Engine.ArgsUrl(ItemMethodPath(res, id, methodName), args, urlEncode)
    ensures x.sent.Some? ==> x.sent.value.body == Engine.AttachBody(body, serializer).value
    ensures x.sent.Some? && Engine.Passes(Engine.OperationOp, response, codec) && readDocument(response.body).Done? ==>
      x.outcome == Return(ElementResult(Some(readDocument(response.body).value)))
    ensures x.sent.Some? && Engine.Passes(Engine.OperationOp, response, codec) && readDocument(response.body).Failed? ==>
      x.outcome.Return? && Reports(x.outcome.value, readDocument(response.body).error)
    ensures x.sent.Some? && !Engine.Passes(Engine.OperationOp, response, codec) ==>
      Surfaced(Engine.Receive(Engine.OperationOp, response, codec).thrown, x.outcome)
  {
    var e := Engine.Operation(ItemMethodPath(res, id, methodName), res.authorization, args, urlEncode,
      body, serializer, response, codec, readDocument);
    Engine.Exchange(e.sent, Wrap(e.outcome, Document))
  }

  /** `ItemOperation(id, method, args)`: POST `{id}/~method` with the arguments and no body. */
  function ItemOperationWithoutBody(res: Resource, id: string, methodName: string,
                                    args: Option<seq<(string, string)>>, urlEncode: string -> string,
                                    response: Response, codec: Codec,
                                    readDocument: Body -> Attempt<JObject>): (x: Engine.Exchange<Result<JObject>>)
    ensures x.sent.Some? && x.sent.value.verb == POST && x.sent.value.body.None?
    ensures x.sent.value.url == Engine.ArgsUrl(ItemMethodPath(res, id, methodName), args, urlEncode)
    ensures Engine.Passes(Engine.OperationOp, response, codec) && readDocument(response.body).Done? ==>
      x.outcome == Return(ElementResult(Some(readDocument(response.body).value)))
    ensures Engine.Passes(Engine.OperationOp, response, codec) && readDocument(response.body).Failed? ==>
      x.outcome.Return? && Reports(x.outcome.value, readDocument(response.body).error)
    ensures !Engine.Passes(Engine.OperationOp, response, codec) ==>
      Surfaced(Engine.Receive(Engine.OperationOp, response, codec).thrown, x.outcome)
  {
    var e := Engine.OperationWithoutBody(ItemMethodPath(res, id, methodName), res.authorization, args, urlEncode,
      response, codec, readDocument);
    Engine.Exchange(e.sent, Wrap(e.outcome, Document))
  }
}

=== FILE: resources.dfy ===
/**
 What list and simple resources share: their name, base endpoint and
 authorization, the paths they target, and `WrapException`, the single
 place where an engine exception becomes a `Result`.
 */
module Resources {
  import opened Wrappers
  import opened ResultCodes
  import opened Results
  import opened Http
  import opened EngineCommon
  import opened Text

  /** A resource handle; the constructor stores its three arguments as given. */
  datatype Resource = Resource(name: string, baseEndpoint: string, authorization: Authorization)

  /** `{Base}/{Name}` */
  function CollectionPath(res: Resource): (p: string)
    ensures res.baseEndpoint < p && p[|res.baseEndpoint|] == '/' && p[|res.baseEndpoint| + 1..] == res.name
  {
    res.baseEndpoint + "/" + res.name
  }

  /** `{Base}/{Name}/{id}` */
  function ItemPath(res: Resource, id: string): (p: string)
    ensures CollectionPath(res) < p && p[|CollectionPath(res)|] == '/' && p[|CollectionPath(res)| + 1..] == id
  {
    CollectionPath(res) + "/" + id
  }

  /** `{Base}/{Name}/~{method}` */
  function MethodPath(res: Resource, methodName: string): (p: string)
    ensures |p| == |CollectionPath(res)| + 2 + |methodName| && CollectionPath(res) < p
    ensures p[|CollectionPath(res)|..|CollectionPath(res)| + 2] == "/~" && p[|CollectionPath(res)| + 2..] == methodName
  {
    CollectionPath(res) + "/~" + methodName
  }

  /** `{Base}/{Name}/{id}/~{method}` */
  function ItemMethodPath(res: Resource, id: string, methodName: string): (p: string)
    ensures |p| == |ItemPath(res, id)| + 2 + |methodName| && ItemPath(res, id) < p
    ensures p[|ItemPath(res, id)|..|ItemPath(res, id)| + 2] == "/~" && p[|ItemPath(res, id)| + 2..] == methodName
  {
    ItemPath(res, id) + "/~" + methodName
  }

  /**
   With slash-free names, ids and methods, the paths split at `/` into the
   base's segments followed by the name, then the id and/or `~method`.
   */
  lemma PathSegments(res: Resource, id: string, methodName: string)
    requires '/' !in res.name && '/' !in id && '/' !in methodName
    ensures Split(CollectionPath(res), '/') == Split(res.baseEndpoint, '/') + [res.name]
    ensures Split(ItemPath(res, id), '/') == Split(res.baseEndpoint, '/') + [res.name, id]
    ensures Split(MethodPath(res, methodName), '/') == Split(res.baseEndpoint, '/') + [res.name, "~" + methodName]
    ensures Split(ItemMethodPath(res, id, methodName), '/') ==
      Split(res.baseEndpoint, '/') + [res.name, id, "~" + methodName]
  {
    var m := "~" + methodName;
    assert '/' !in m;
    assert CollectionPath(res) == res.baseEndpoint + ['/'] + res.name;
    SplitAppend(res.baseEndpoint, res.name, '/');
    assert ItemPath(res, id) == CollectionPath(res) + ['/'] + id;
    SplitAppend(CollectionPath(res), id, '/');
    assert MethodPath(res, methodName) == CollectionPath(res) + ['/'] + m;
    SplitAppend(CollectionPath(res), m, '/');
    assert ItemMethodPath(res, id, methodName) == ItemPath(res, id) + ['/'] + m;
    SplitAppend(ItemPath(res, id), m, '/');
  }

  /** Without any `?` in its parts, a path is sent exactly as built. */
  lemma PlainPathsAreSentAsBuilt(res: Resource, id: string, methodName: string)
    requires '?' !in res.baseEndpoint && '?' !in res.name && '?' !in id && '?' !in methodName
    ensures StripQuery(CollectionPath(res)) == CollectionPath(res)
    ensures StripQuery(ItemPath(res, id)) == ItemPath(res, id)
    ensures StripQuery(MethodPath(res, methodName)) == MethodPath(res, methodName)
    ensures StripQuery(ItemMethodPath(res, id, methodName)) == ItemMethodPath(res, id, methodName)
  {
    StripQueryIdempotent(CollectionPath(res));
    StripQueryIdempotent(ItemPath(res, id));
    StripQueryIdempotent(MethodPath(res, methodName));
    StripQueryIdempotent(ItemMethodPath(res, id, methodName));
  }

  /**
   The query is stripped from the whole path, not from the base: a `?` in
   the base endpoint cuts the name, id and method off every request URL.
   */
  lemma QueryInBaseCutsPath(res: Resource, id: string, methodName: string)
    requires '?' in res.baseEndpoint
    ensures StripQuery(CollectionPath(res)) == StripQuery(res.baseEndpoint)
    ensures StripQuery(ItemPath(res, id)) == StripQuery(res.baseEndpoint)
    ensures StripQuery(MethodPath(res, methodName)) == StripQuery(res.baseEndpoint)
    ensures StripQuery(ItemMethodPath(res, id, methodName)) == StripQuery(res.baseEndpoint)
  {
    var b := res.baseEndpoint;
    QueryInHeadCuts(b, "/" + res.name);
    assert CollectionPath(res) == b + ("/" + res.name);
    QueryInHeadCuts(b, "/" + res.name + "/" + id);
    assert ItemPath(res, id) == b + ("/" + res.name + "/" + id);
    QueryInHeadCuts(b, "/" + res.name + "/~" + methodName);
    assert MethodPath(res, methodName) == b + ("/" + res.name + "/~" + methodName);
    QueryInHeadCuts(b, "/" + res.name + "/" + id + "/~" + methodName);
    assert ItemMethodPath(res, id, methodName) == b + ("/" + res.name + "/" + id + "/~" + methodName);
  }

  /** Whatever follows a head with a `?` is cut off with the query. */
  lemma QueryInHeadCuts(head: string, tail: string)
    requires '?' in head
    ensures StripQuery(head + tail) == StripQuery(head)
  {
    StripQueryOfConcat(head, tail);
  }

  /** The Result built in the handler of `WrapException`. */
  function FromException<E>(e: EngineException): (r: Result<E>)
    ensures r.code == e.code
    ensures r.requestErrorCode == e.requestErrorCode && r.validationErrors == e.validationErrors
    ensures r.NoPayload()
  {
    Result(e.code, e.validationErrors, e.requestErrorCode, None, None, None)
  }

  /**
   `WrapException`: a returned Result passes through unchanged; an engine
   exception becomes a Result carrying its code and details; any other
   exception propagates.
   */
  function WrapException<E(==)>(wrapped: Outcome<Result<E>>): (r: Outcome<Result<E>>)
    ensures wrapped.Return? ==> r == wrapped
    ensures wrapped.Raise? && wrapped.thrown.EngineError? ==>
      r.Return? && r.value.code == wrapped.thrown.error.code && r.value.NoPayload() &&
      r.value.requestErrorCode == wrapped.thrown.error.requestErrorCode &&
      r.value.validationErrors == wrapped.thrown.error.validationErrors
    ensures wrapped.Raise? && !wrapped.thrown.EngineError? ==> r == wrapped
    ensures r.Raise? ==> !r.thrown.EngineError?
  {
    match wrapped
    case Raise(EngineError(e)) => Return(FromException(e))
    case _ => wrapped
  }

  /** Wrapping an already wrapped outcome changes nothing. */
  lemma WrapExceptionIdempotent<E>(wrapped: Outcome<Result<E>>)
    ensures WrapException(WrapException(wrapped)) == WrapException(wrapped)
  {
  }

  /** A success Result with nothing but the code. */
  function OkResult<E>(): (r: Result<E>)
    ensures r.code == Ok && r.NoPayload() && r.NoErrorDetail()
  {
    Result(Ok, None, None, None, None, None)
  }

  /** The success Result of the calls whose engine operation returns nothing. */
  function DoneResult<E>(nothing: ()): Result<E> {
    OkResult()
  }

  /** A success Result carrying one element. */
  function ElementResult<E>(element: Option<E>): (r: Result<E>)
    ensures r.code == Ok && r.element == element && r.NoErrorDetail()
    ensures r.elements.None? && r.createdID.None?
  {
    Result(Ok, None, None, None, element, None)
  }

  /** A success Result carrying a page of elements. */
  function PageResult<E>(elements: Option<seq<E>>): (r: Result<E>)
    ensures r.code == Ok && r.elements == elements && r.NoErrorDetail()
    ensures r.element.None? && r.createdID.None?
  {
    Result(Ok, None, None, None, None, elements)
  }

  /** A Result for a created element. */
  function CreatedResult<E>(id: Option<string>): (r: Result<E>)
    ensures r.code == Created && r.createdID == id && r.NoErrorDetail()
    ensures r.element.None? && r.elements.None?
  {
    Result(Created, None, None, id, None, None)
  }

  /** `r` is the Result `WrapException` makes of the engine exception `e`. */
  predicate Reports<E>(r: Result<E>, e: EngineException) {
    && r.code == e.code && r.NoPayload()
    && r.requestErrorCode == e.requestErrorCode && r.validationErrors == e.validationErrors
  }

  /**
   How a facade call surfaces an exception thrown below it: an engine
   exception is reported in a Result, any other exception propagates.
   */
  predicate Surfaced<E>(thrown: Thrown, out: Outcome<Result<E>>) {
    if thrown.EngineError? then out.Return? && Reports(out.value, thrown.error)
    else out.Raise? && out.thrown == thrown
  }

  /** The body of every facade call: the success Result built from the engine's value, wrapped. */
  function Wrap<T, E(==)>(engine: Outcome<T>, success: T -> Result<E>): (r: Outcome<Result<E>>)
    ensures engine.Return? ==> r == Return(success(engine.value))
    ensures engine.Raise? ==> Surfaced(engine.thrown, r)
  {
    WrapException(match engine
      case Return(v) => Return(success(v))
      case Raise(t) => Raise(t))
  }
}

=== FILE: result_code.dfy ===
/** The closed outcome enumeration every resource call reports. */
module ResultCodes {

  datatype ResultCode =
    // Regarding permission and availability.
    | Unauthorized
    | Forbidden
    | Unsupported
    | DoesNotExist
    // Regarding edition.
    | AlreadyExists
    | ValidationError
    | DuplicateKey
    | InUse
    | Conflict
    | FormatError
    | BadRequest
    // Regarding other client-side errors.
    | ClientError
    // Regarding server errors.
    | Unreachable
    | ServiceUnavailable
    | Timeout
    | ServerError
    | InternalError
    // Success.
    | Created
    | Updated
    | Replaced
    | Deleted
    | Ok

  /** The groups the enumeration is declared in. */
  datatype Category = Access | Edition | Client | Server | Success

  function CategoryOf(code: ResultCode): Category {
    match code
    case Unauthorized | Forbidden | Unsupported | DoesNotExist => Access
    case AlreadyExists | ValidationError | DuplicateKey | InUse | Conflict | FormatError | BadRequest => Edition
    case ClientError => Client
    case Unreachable | ServiceUnavailable | Timeout | ServerError | InternalError => Server
    case Created | Updated | Replaced | Deleted | Ok => Success
  }

  predicate IsSuccess(code: ResultCode) {
    CategoryOf(code) == Success
  }
}

=== FILE: results.dfy ===
/**
 The value every facade call returns, and the opaque JSON documents it may
 carry. JSON is never inspected by the library itself, so a document is
 kept as the text it was read from.
 */
module Results {
  import opened Wrappers
  import opened ResultCodes

  /** An opaque JSON object. */
  datatype JObject = JObject(text: string)

  /** An opaque JSON array. */
  datatype JArray = JArray(text: string)

  /**
   The outcome of one operation on a resource whose ids are strings. A
   field left at its C# default (`null`) is `None`.
   */
  datatype Result<E> = Result(
    code: ResultCode,
    validationErrors: Option<JObject>,
    requestErrorCode: Option<string>,
    createdID: Option<string>,
    element: Option<E>,
    elements: Option<seq<E>>)
  {
    /** None of the success payloads (created id, element, element page) is set. */
    predicate NoPayload() {
      createdID.None? && element.None? && elements.None?
    }

    /** None of the failure details (validation errors, request error code) is set. */
    predicate NoErrorDetail() {
      validationErrors.None? && requestErrorCode.None?
    }
  }
}

=== FILE: roots.dfy ===
/**
 The root: a normalised base endpoint and an authorization, handing out
 list and simple resources that share both.
 */
module Roots {
  import opened Wrappers
  import opened Http
  import opened EngineCommon
  import opened Text
  import opened Resources

  /** A root; its base endpoint never ends in `/`. */
  datatype Root = Root(baseEndpoint: string, authorization: Authorization)

  /**
   The constructor. A missing base endpoint is reported first, then a
   missing authorization; the stored base has its trailing `/`s removed
   and nothing else changed.
   */
  function NewRoot(baseEndpoint: Option<string>, authorization: Option<Authorization>): (r: Outcome<Root>)
    ensures r.Return? <==> baseEndpoint.Some? && authorization.Some?
    ensures baseEndpoint.None? ==> r == Raise(ArgumentNull("baseEndpoint"))
    ensures baseEndpoint.Some? && authorization.None? ==> r == Raise(ArgumentNull("authorization"))
    ensures r.Return? ==> r.value.authorization == authorization.value
    ensures r.Return? ==> r.value.baseEndpoint <= baseEndpoint.value
    ensures r.Return? ==> |r.value.baseEndpoint| == 0 || r.value.baseEndpoint[|r.value.baseEndpoint| - 1] != '/'
    ensures r.Return? ==>
      forall i :: |r.value.baseEndpoint| <= i < |baseEndpoint.value| ==> baseEndpoint.value[i] == '/'
  {
    match baseEndpoint
    case None => Raise(ArgumentNull("baseEndpoint"))
    case Some(b) =>
      match authorization
      case None => Raise(ArgumentNull("authorization"))
      case Some(a) => Return(Root(TrimEnd(b, '/'), a))
  }

  /** Building a root from the base of a built root changes nothing. */
  lemma NewRootIdempotent(baseEndpoint: string, authorization: Authorization)
    ensures NewRoot(Some(baseEndpoint), Some(authorization)).Return?
    ensures var root := NewRoot(Some(baseEndpoint), Some(authorization)).value;
      NewRoot(Some(root.baseEndpoint), Some(authorization)) == Return(root)
  {
    TrimEndIdempotent(baseEndpoint, '/');
  }

  /** A base like the documented `http://localhost:7777`, given with trailing slashes, is stored without them. */
  lemma ExampleRoot(authorization: Authorization)
    ensures NewRoot(Some("http://localhost:7777//"), Some(authorization)) ==
      Return(Root("http://localhost:7777", authorization))
  {
    TrimEndUnique("http://localhost:7777//", '/', "http://localhost:7777");
  }

  const IdTypeMessage := "Only string is supported as ID type"
  const ListTypesMessage := "Only string is supported as ID type, and Cursor as cursor type"

  /** `GetSimple<E, ID>(name)`: only `string` ids are supported. */
  function GetSimple(root: Root, name: string, idIsString: bool): (r: Outcome<Resource>)
    ensures r.Return? <==> idIsString
    ensures !idIsString ==> r == Raise(ArgumentError(IdTypeMessage))
    ensures r.Return? ==> r.value == Resource(name, root.baseEndpoint, root.authorization)
  {
    if !idIsString then Raise(ArgumentError(IdTypeMessage))
    else Return(GetSimpleWithStringIds(root, name))
  }

  /** `GetSimple<E>(name)`: always succeeds. */
  function GetSimpleWithStringIds(root: Root, name: string): (res: Resource)
    ensures res.name == name && res.baseEndpoint == root.baseEndpoint && res.authorization == root.authorization
  {
    Resource(name, root.baseEndpoint, root.authorization)
  }

  /** `GetList<LE, E, ID, C>(name)`: only `string` ids and `Cursor` cursors are supported. */
  function GetList(root: Root, name: string, idIsString: bool, cursorIsCursor: bool): (r: Outcome<Resource>)
    ensures r.Return? <==> idIsString && cursorIsCursor
    ensures !r.Return? ==> r == Raise(ArgumentError(ListTypesMessage))
    ensures r.Return? ==> r.value == Resource(name, root.baseEndpoint, root.authorization)
  {
    if !idIsString || !cursorIsCursor then Raise(ArgumentError(ListTypesMessage))
    else Return(GetListWithStringIds(root, name))
  }

  /** `GetList<LE, E>(name)`: always succeeds. */
  function GetListWithStringIds(root: Root, name: string): (res: Resource)
    ensures res.name == name && res.baseEndpoint == root.baseEndpoint && res.authorization == root.authorization
  {
    Resource(name, root.baseEndpoint, root.authorization)
  }

  /**
   A resource handed out by a root built from `baseEndpoint` targets the
   trimmed base, one `/`, and the name: trailing slashes on the base never
   double up in the path.
   */
  lemma RootPathsHaveSingleSeam(baseEndpoint: string, authorization: Authorization, name: string)
    requires TrimEnd(baseEndpoint, '/') != ""
    ensures var root := NewRoot(Some(baseEndpoint), Some(authorization)).value;
      var path := CollectionPath(GetListWithStringIds(root, name));
      var n := |root.baseEndpoint|;
      && path[..n] == root.baseEndpoint && path[n] == '/'
      && path[n - 1] != '/' && path[n + 1..] == name
  {
    var root := NewRoot(Some(baseEndpoint), Some(authorization)).value;
    var path := CollectionPath(GetListWithStringIds(root, name));
    assert path == root.baseEndpoint + "/" + name;
  }
}

=== FILE: simple_resource.dfy ===
/**
 The simple resource facade: a single element living at `{Base}/{Name}`,
 with the same `WrapException` discipline as the list resource.
 */
module SimpleResource {
  import opened Wrappers
  import opened ResultCodes
  import opened Results
  import opened Http
  import opened EngineCommon
  import opened Wire
  import opened Text
  import opened Resources
  import Engine

  /** `Create(body)`: POST to the resource; the Result carries the new id. */
  function Create<E(==)>(res: Resource, body: Option<E>, serializer: Serializer<E>,
                         response: Response, codec: Codec): (x: Engine.Exchange<Result<E>>)
    ensures x.sent.None? <==> body.Some? && serializer(body.value).None?
    ensures x.sent.None? ==> x.outcome.Return? && Reports(x.outcome.value, Plain(FormatError))
    ensures x.sent.Some? ==> x.sent.value.url == StripQuery(CollectionPath(res)) && x.sent.value.verb == POST
    ensures x.sent.Some? && Engine.Passes(Engine.CreateOp, response, codec) ==>
      match codec.created(response.body)
      case Malformed => x.outcome == Return(CreatedResult(Some("")))
      case NullValue => x.outcome == Raise(NullReference)
      case Value(created) => x.outcome == Return(CreatedResult(created.id))
    ensures x.sent.Some? && !Engine.Passes(Engine.CreateOp, response, codec) ==>
      Surfaced(Engine.Receive(Engine.CreateOp, response, codec).thrown, x.outcome)
  {
    var e := Engine.Create(CollectionPath(res), res.authorization, body, serializer, response, codec);
    Engine.Exchange(e.sent, Wrap(e.outcome, CreatedResult))
  }

  /** `Read()`: GET the element, in `Element`. */
  function Read<E(==)>(res: Resource, response: Response, codec: Codec,
                       parser: Parser<E>): (x: Engine.Exchange<Result<E>>)
    ensures x.sent.Some? && x.sent.value.url == StripQuery(CollectionPath(res)) && x.sent.value.verb == GET
    ensures x.outcome.Return?
    ensures Engine.Passes(Engine.OneOp, response, codec) && !parser(response.body).Malformed? ==>
      x.outcome.value == ElementResult(Parsed(parser(response.body)))
    ensures Engine.Passes(Engine.OneOp, response, codec) && parser(response.body).Malformed? ==>
      Reports(x.outcome.value, Plain(FormatError))
    ensures !Engine.Passes(Engine.OneOp, response, codec) ==>
      Surfaced(Engine.Receive(Engine.OneOp, response, codec).thrown, x.outcome)
  {
    var e := Engine.One(CollectionPath(res), res.authorization, response, codec, parser);
    Engine.Exchange(e.sent, Wrap(e.outcome, ElementResult))
  }

  /** `Update(changes)`: PATCH the element; a bare `Ok` on success. */
  function Update<E(==)>(res: Resource, changes: Option<JObject>, serializer: Serializer<JObject>,
                         response: Response, codec: Codec): (x: Engine.Exchange<Result<E>>)
    ensures x.sent.None? <==> changes.Some? && serializer(changes.value).None?
    ensures x.sent.None? ==> x.outcome.Return? && Reports(x.outcome.value, Plain(FormatError))
    ensures x.sent.Some? ==> x.sent.value.url == StripQuery(CollectionPath(res)) && x.sent.value.verb == PATCH
    ensures x.sent.Some? && Engine.Passes(Engine.UpdateOp, response, codec) ==> x.outcome == Return(OkResult())
    ensures x.sent.Some? && !Engine.Passes(Engine.UpdateOp, response, codec) ==>
      Surfaced(Engine.Receive(Engine.UpdateOp, response, codec).thrown, x.outcome)
  {
    var e := Engine.Update(CollectionPath(res), res.authorization, changes, serializer, response, codec);
    Engine.Exchange(e.sent, Wrap(e.outcome, DoneResult))
  }

  /** `Replace(replacement)`: PUT the element; a bare `Ok` on success. */
  function Replace<E(==)>(res: Resource, replacement: Option<E>, serializer: Serializer<E>,
                          response: Response, codec: Codec): (x: Engine.Exchange<Result<E>>)
    ensures x.sent.None? <==> replacement.Some? && serializer(replacement.value).None?
    ensures x.sent.None? ==> x.outcome.Return? && Reports(x.outcome.value, Plain(FormatError))
    ensures x.sent.Some? ==> x.sent.value.url == StripQuery(CollectionPath(res)) && x.sent.value.verb == PUT
    ensures x.sent.Some? && Engine.Passes(Engine.ReplaceOp, response, codec) ==> x.outcome == Return(OkResult())
    ensures x.sent.Some? && !Engine.Passes(Engine.ReplaceOp, response, codec) ==>
      Surfaced(Engine.Receive(Engine.ReplaceOp, response, codec).thrown, x.outcome)
  {
    var e := Engine.Replace(CollectionPath(res), res.authorization, replacement, serializer, response, codec);
    Engine.Exchange(e.sent, Wrap(e.outcome, DoneResult))
  }

  /** `Delete()`: DELETE the element; a bare `Ok` on success. */
  function Delete<E(==)>(res: Resource, response: Response, codec: Codec): (x: Engine.Exchange<Result<E>>)
    ensures x.sent.Some? && x.sent.value.url == StripQuery(CollectionPath(res)) && x.sent.value.verb == DELETE
    ensures Engine.Passes(Engine.DeleteOp, response, codec) ==> x.outcome == Return(OkResult())
    ensures !Engine.Passes(Engine.DeleteOp, response, codec) ==>
      Surfaced(Engine.Receive(Engine.DeleteOp, response, codec).thrown, x.outcome)
  {
    var e := Engine.Delete(CollectionPath(res), res.authorization, response, codec);
    Engine.Exchange(e.sent, Wrap(e.outcome, DoneResult))
  }

  /** The endpoint a named call targets and what the caller gets back. */
  datatype Invocation<T> = Invocation(endpoint: string, outcome: Outcome<Result<T>>)

  /**
   The named calls (`ViewToJson`, `OperationToJson`, `ViewToJsonArray`,
   `OperationToJsonArray`, `ViewTo`, `OperationTo`, with and without a
   body) all hand `{Base}/{Name}/~{method}` to an engine entry point and
   put its answer in `Element`. The entry point, with the arguments and
   the body already bound, is the parameter `entry`.
   */
  function NamedCall<T(==)>(res: Resource, methodName: string, entry: string -> Outcome<T>): (c: Invocation<T>)
    ensures c.endpoint == MethodPath(res, methodName)
    ensures entry(c.endpoint).Return? ==> c.outcome == Return(ElementResult(Some(entry(c.endpoint).value)))
    ensures entry(c.endpoint).Raise? ==> Surfaced(entry(c.endpoint).thrown, c.outcome)
  {
    var endpoint := MethodPath(res, methodName);
    Invocation(endpoint, Wrap(entry(endpoint), (v: T) => ElementResult(Some(v))))
  }
}

=== FILE: text.dfy ===
/**
 String helpers the engine relies on: `String.Split(char)`, `String.Join`,
 `String.TrimEnd(char)` and the decimal rendering of an unsigned integer,
 each with the inverse or characterisation that pins it down.
 */
module Text {
  import opened Wrappers

  /** `String.Join(c, parts)`: the parts with `c` between consecutive ones. */
  function Join(parts: seq<string>, c: char): string
    decreases |parts|
  {
    if |parts| == 0 then ""
    else if |parts| == 1 then parts[0]
    else parts[0] + [c] + Join(parts[1..], c)
  }

  /**
   `s.Split(c)`: the maximal `c`-free pieces of `s`, empty pieces kept.
   Joining them back with `c` gives `s` again.
   */
  function Split(s: string, c: char): (parts: seq<string>)
    ensures |parts| >= 1
    ensures forall i :: 0 <= i < |parts| ==> c !in parts[i]
    ensures Join(parts, c) == s
    decreases |s|
  {
    if |s| == 0 then [""]
    else
      var rest := Split(s[1..], c);
      if s[0] == c then
        assert ([""] + rest)[1..] == rest;
        [""] + rest
      else
        var parts := [[s[0]] + rest[0]] + rest[1..];
        assert parts[1..] == rest[1..];
        assert |rest| > 1 ==> Join(rest, c) == rest[0] + [c] + Join(rest[1..], c);
        parts
  }

  /** A string without `c` splits into itself alone. */
  lemma {:induction false} SplitWithoutSeparator(s: string, c: char)
    requires c !in s
    ensures Split(s, c) == [s]
  {
    JoinHead(Split(s, c), c);
  }

  /** A separator splits the string into the pieces on its two sides. */
  lemma {:induction false} SplitAtSeparator(a: string, b: string, c: char)
    ensures Split(a + [c] + b, c) == Split(a, c) + Split(b, c)
    decreases |a|
  {
    var s := a + [c] + b;
    if |a| == 0 {
      assert s[1..] == b;
    } else {
      assert s[1..] == a[1..] + [c] + b;
      SplitAtSeparator(a[1..], b, c);
      if a[0] == c {
        assert Split(s, c) == [""] + Split(a[1..], c) + Split(b, c);
      } else {
        var ra := Split(a[1..], c);
        assert Split(s[1..], c) == ra + Split(b, c);
        assert (ra + Split(b, c))[0] == ra[0];
        assert (ra + Split(b, c))[1..] == ra[1..] + Split(b, c);
      }
    }
  }

  /** Appending `c` and a separator-free segment appends one part. */
  lemma SplitAppend(a: string, segment: string, c: char)
    requires c !in segment
    ensures Split(a + [c] + segment, c) == Split(a, c) + [segment]
  {
    SplitAtSeparator(a, segment, c);
    SplitWithoutSeparator(segment, c);
  }

  /** `Join` starts with its first part, followed by `c` when more parts come. */
  lemma JoinHead(parts: seq<string>, c: char)
    requires |parts| >= 1
    ensures parts[0] <= Join(parts, c)
    ensures |parts| > 1 ==> |Join(parts, c)| > |parts[0]| && Join(parts, c)[|parts[0]|] == c
    ensures |parts| == 1 ==> Join(parts, c) == parts[0]
  {
  }

  /** Splitting undoes joining when no part contains the separator. */
  lemma {:induction false} SplitOfJoin(parts: seq<string>, c: char)
    requires |parts| >= 1
    requires forall i :: 0 <= i < |parts| ==> c !in parts[i]
    ensures Split(Join(parts, c), c) == parts
    decreases |parts|
  {
    if |parts| == 1 {
      SplitWithoutSeparator(parts[0], c);
    } else {
      SplitOfJoin(parts[1..], c);
      SplitAtSeparator(parts[0], Join(parts[1..], c), c);
      SplitWithoutSeparator(parts[0], c);
      assert [parts[0]] + parts[1..] == parts;
    }
  }

  /** True when `p` is a prefix of `s`, returning what follows it. */
  function StripPrefix(p: string, s: string): (r: Option<string>)
    ensures r.Some? <==> p <= s
    ensures r.Some? ==> s == p + r.value
  {
    if p <= s then Some(s[|p|..]) else None
  }

  /**
   `url.Split('?')[0]`: everything before the first `?`, or the whole
   string when it has none.
   */
  function StripQuery(url: string): (r: string)
    ensures '?' !in r
    ensures r <= url
    ensures |r| < |url| ==> url[|r|] == '?'
  {
    var parts := Split(url, '?');
    JoinHead(parts, '?');
    parts[0]
  }

  /** The three properties of `StripQuery` determine its result. */
  lemma StripQueryUnique(url: string, r: string)
    requires '?' !in r
    requires r <= url
    requires |r| < |url| ==> url[|r|] == '?'
    ensures r == StripQuery(url)
  {
    var s := StripQuery(url);
    assert |r| == |s|;
  }

  /** Stripping is idempotent, and is the identity on `?`-free strings. */
  lemma StripQueryIdempotent(url: string)
    ensures StripQuery(StripQuery(url)) == StripQuery(url)
    ensures '?' !in url ==> StripQuery(url) == url
  {
    StripQueryUnique(StripQuery(url), StripQuery(url));
    if '?' !in url {
      StripQueryUnique(url, url);
    }
  }

  /**
   Appending a `?` and anything at all to a stripped URL does not change
   what the next strip keeps.
   */
  lemma StripQueryOfQueried(url: string, query: string)
    ensures StripQuery(StripQuery(url) + "?" + query) == StripQuery(url)
  {
    var s := StripQuery(url);
    StripQueryUnique(s + "?" + query, s);
  }

  /** Stripping a concatenation: the tail only matters when the head has no `?`. */
  lemma StripQueryOfConcat(a: string, b: string)
    ensures '?' in a ==> StripQuery(a + b) == StripQuery(a)
    ensures '?' !in a ==> StripQuery(a + b) == a + StripQuery(b)
  {
    var s := StripQuery(a);
    if '?' in a {
      assert |s| < |a|;
      StripQueryUnique(a + b, s);
    } else {
      var t := StripQuery(b);
      assert (a + b)[..|a|] == a;
      StripQueryUnique(a + b, a + t);
    }
  }

  /**
   `s.TrimEnd(c)`: `s` with every trailing `c` removed. The result is a
   prefix of `s`, does not end in `c`, and only `c`s were cut.
   */
  function TrimEnd(s: string, c: char): (r: string)
    ensures r <= s
    ensures |r| == 0 || r[|r| - 1] != c
    ensures forall i :: |r| <= i < |s| ==> s[i] == c
    decreases |s|
  {
    if |s| > 0 && s[|s| - 1] == c then TrimEnd(s[..|s| - 1], c) else s
  }

  /** The three properties of `TrimEnd` determine its result. */
  lemma TrimEndUnique(s: string, c: char, r: string)
    requires r <= s
    requires |r| == 0 || r[|r| - 1] != c
    requires forall i :: |r| <= i < |s| ==> s[i] == c
    ensures r == TrimEnd(s, c)
  {
    var t := TrimEnd(s, c);
    assert |r| == |t|;
  }

  /** Trimming twice trims nothing more. */
  lemma TrimEndIdempotent(s: string, c: char)
    ensures TrimEnd(TrimEnd(s, c), c) == TrimEnd(s, c)
  {
    var t := TrimEnd(s, c);
    TrimEndUnique(t, c, t);
  }

  predicate IsDigit(ch: char) {
    '0' <= ch <= '9'
  }

  function DigitChar(d: nat): (ch: char)
    requires d < 10
    ensures IsDigit(ch)
  {
    ('0' as int + d) as char
  }

  function DigitValue(ch: char): (d: nat)
    requires IsDigit(ch)
    ensures d < 10
  {
    ch as int - '0' as int
  }

  /**
   The invariant-culture decimal rendering of a non-negative integer, as
   C# prints an unsigned value: digits only, no sign, no leading zero.
   */
  function Decimal(n: nat): (s: string)
    ensures |s| >= 1
    ensures forall i :: 0 <= i < |s| ==> IsDigit(s[i])
    ensures s[0] == '0' ==> n == 0 && s == "0"
    decreases n
  {
    if n < 10 then [DigitChar(n)] else Decimal(n / 10) + [DigitChar(n % 10)]
  }

  /** The value of a digit string, read most significant digit first. */
  function DigitsValue(s: string): nat
    requires forall i :: 0 <= i < |s| ==> IsDigit(s[i])
    decreases |s|
  {
    if |s| == 0 then 0 else DigitsValue(s[..|s| - 1]) * 10 + DigitValue(s[|s| - 1])
  }

  /** Reads a non-empty digit string; anything else is rejected. */
  function ParseDecimal(s: string): (r: Option<nat>)
    ensures r.Some? <==> |s| >= 1 && forall i :: 0 <= i < |s| ==> IsDigit(s[i])
  {
    if |s| >= 1 && forall i :: 0 <= i < |s| ==> IsDigit(s[i]) then Some(DigitsValue(s)) else None
  }

  /** Reading back the decimal rendering yields the number. */
  lemma {:induction false} DecimalRoundTrip(n: nat)
    ensures ParseDecimal(Decimal(n)) == Some(n)
    decreases n
  {
    DigitsOfDecimal(n);
  }

  lemma {:induction false} DigitsOfDecimal(n: nat)
    ensures DigitsValue(Decimal(n)) == n
    decreases n
  {
    var s := Decimal(n);
    if n >= 10 {
      DigitsOfDecimal(n / 10);
      assert s[..|s| - 1] == Decimal(n / 10);
    }
  }
}

=== FILE: wire.dfy ===
/**
 The wire records read from specific response bodies, and the JSON parsers
 for them. A field missing from the document is `None`.
 */
module Wire {
  import opened Wrappers
  import opened Results
  import opened EngineCommon

  /** Body of a 400 answer: `{"code": ..., "errors": {...}}`. */
  datatype BadRequestBody = BadRequestBody(code: Option<string>, validationErrors: Option<JObject>)

  /** Body of a 409 answer: `{"code": ...}`. */
  datatype ConflictBody = ConflictBody(code: Option<string>)

  /** Body of a successful create: `{"id": ...}`. */
  datatype CreatedBody = CreatedBody(id: Option<string>)

  /** The JSON library, as far as the wire records are concerned. */
  datatype Codec = Codec(
    badRequest: Parser<BadRequestBody>,
    conflict: Parser<ConflictBody>,
    created: Parser<CreatedBody>)
}

=== FILE: wrappers.dfy ===
/** The optional value used wherever the source uses a nullable reference. */
module Wrappers {

  /** `None` stands for C#'s `null`; `Some(v)` for a present value. */
  datatype Option<+T> = None | Some(value: T) {

    /** The value, or `default` when absent. */
    function GetOr(default: T): T {
      match this
      case Some(v) => v
      case None => default
    }
  }
}
